=== FILE: README.md ===
# simulacrum_mock expectation engine in Dafny

This project models the expectation-tracking engine of the Rust crate
`simulacrum_mock`. A mock object owns an `Expectations` facade over an
expectation store:

- **Registration.** `expect(name)` opens a registration. The `Method` /
  `TrackedMethod` builder then records an expectation: a method name, an
  ordered list of constraints, and optional modification and return closures.
- **Eras.** `then()` closes the current era. Every expectation of an era must
  pass before the calls of the next era are matched.
- **Calls.** `was_called` / `was_called_returning` first advance the era
  cursor by verifying. They then deliver the call to the expectations for that
  name in the cursor's era.
- **Verification.** `verify` walks the eras from the cursor and reports the
  first failing constraint of the first failing era.

The constraints are:

- `Times`, a signed count of calls still expected;
- `Params`, a sticky parameter rule that records the first offending argument;
- `AlwaysPass` / `AlwaysFail`;
- `ConstraintMock`, the test double of the constraint interface.

The validators `Params` consumes are the equality validator, `gt`/`lt`,
`any`/`none` and the tuple conjunctions.

Layout:

- `times.dfy`, `params.dfy`, `constraint.dfy`, `constraint_result.dfy`: the
  constraints and their errors.
- `expectation.dfy`, `expectation_result.dfy`: one expectation and its verdict.
- `store.dfy`: the store.
  - `ExpectationStore` is a class with fields `currentUnverifiedEra`, `eras`
    and `expectations`.
  - The arena of expectations is a sequence; an expectation's id is its index.
  - Its invariant: at least one era, every id names an expectation, and no
    era lists an id twice.
  - Its methods are proved against the specification functions `VerifyFrom`,
    `MatchedIds`, `LastEraHasName` and `DeliverCall`.
- `method.dfy`, `mock.dfy`: the builder and the facade. Both change the shared
  store in place.
- `validator.dfy`, `compare.dfy`, `trivial.dfy`, `tuple.dfy`: the validators.
- `validator_rules.dfy`: what each stock validator means inside a parameter
  rule, as the rule's verdict after a whole sequence of calls.
- `mock_scenarios.dfy`: complete runs of a mock, following the crate's
  scenario tests. Each run builds a fresh mock, registers, calls and, where
  the test does, verifies; its contract states the outcome for all inputs.
- `panics.dfy`, `decimal.dfy`, `wrappers.dfy`: panic values, decimal
  rendering of integers, `Option`/`Result`.

Panics are modelled as values, not as preconditions. Each `panic!` of the
engine becomes a `Panics.Panic` in a `Result`:

- a duplicate registration in one era;
- a return value requested without a return closure;
- a return value requested for a call that matched nothing.

The contracts therefore say exactly when each one happens.

In three places the crate's own comments do not describe what the code
does in general; the model follows the code:

- **Cursor after a full pass.** The comment in the trailing-`then()` test
  (`simulacrum_mock/src/mock.rs:400`) says that all eras are complete and
  later calls do not matter. For that test this holds, but only because of
  the trailing empty era. In the code, when every era passes, `verify`
  leaves the cursor on the last era (`eras.len() - 1`), not past the end.
  A later call therefore matches exactly the last era's ids with the called
  name. It matches nothing only when no expectation there carries that name,
  in particular when the era is empty, as in that test. Without a trailing
  empty era, later calls still reach the last era's expectations, so the
  general reading "later calls never matter" does not hold. See
  `Store.CompletedStoreStillMatchesLastEra` and `MockScenarios.TrailingEraRun`.
- **`called_any()` and era completion.** The comment on `then()`
  (`simulacrum_mock/src/mock.rs:37-41`) says that `called_any()` is complete
  after the first call. In the code `called_any()` adds no constraint, so its
  expectation passes before any call. An era made only of such expectations
  (or of `called_never()` ones) is left at the next cursor advance, without
  waiting for a first call. See `MockScenarios.EagerRun` and
  `MockScenarios.EagerNeverRun`.
- **Which era the duplicate check reads.** The comment in
  `has_expectation_for_method_in_current_era`
  (`simulacrum_mock/src/store.rs:47`) speaks of the current era, but the code
  reads the last era (the one being built). Matching reads the cursor's era.

## Model

| member | source | states |
|---|---|---|
| Times.New | simulacrum/src/constraint/stock/times.rs:7-9 | a new count rule expects exactly the given number of calls |
| Times.HandleCall | simulacrum/src/constraint/stock/times.rs:13-15 | each call lowers the remaining count by exactly one |
| Times.Verify | simulacrum/src/constraint/stock/times.rs:17-23 | Ok iff the remaining count is 0; a positive count `x` gives too-few(`x`), a negative one gives too-many(`-x`), and both carry a positive count |
| Times.AfterCallsCounts | simulacrum/src/constraint/stock/times.rs:13-15 | after `k` calls the remaining count is the start minus `k` |
| Times.ExactCount | simulacrum/src/constraint/stock/times.rs:7-23 | `new(n)` then `k` calls passes iff `k == n`; otherwise it reports `n - k` too few or `k - n` too many |
| Params.New | simulacrum_mock/src/constraint/stock/params.rs:17-26 | a new parameter rule is valid, with an empty message, and holds the given validator |
| Params.HandleCall | simulacrum_mock/src/constraint/stock/params.rs:30-37 | the rule stays valid iff it was valid and the validator accepts; an invalid rule is unchanged; the first rejection records the argument's rendering |
| Params.Verify | simulacrum_mock/src/constraint/stock/params.rs:39-50 | Ok iff valid; otherwise mismatched-params with the validator's description and the recorded message |
| Params.StaysInvalid | simulacrum_mock/src/constraint/stock/params.rs:31-36 | once invalid, no sequence of later calls changes the rule |
| Params.ValidIffAllPass | simulacrum_mock/src/constraint/stock/params.rs:30-41 | a valid rule stays valid after a call sequence iff the validator accepts every argument |
| Params.FirstOffenderReported | simulacrum_mock/src/constraint/stock/params.rs:31-48 | when call `k` is the first rejected, verification reports the rendering of exactly that argument |
| Params.FreshRuleVerifiesOk | simulacrum_mock/src/constraint/stock/params.rs:21-26 | a new rule, and one that saw only accepted arguments, verifies Ok |
| Constraint.NewConstraintMock | simulacrum_mock/src/constraint/mod.rs:29-34 | a new constraint mock has both flags false |
| Constraint.ExpectHandleCall | simulacrum_mock/src/constraint/mod.rs:36-38 | sets the expected flag and leaves the called flag |
| Constraint.HandleCall | simulacrum_mock/src/constraint/mod.rs:10-44 | each rule keeps its kind; the always-rules use the default no-op; the mock sets only its called flag |
| Constraint.Verify | simulacrum/src/constraint/stock/always.rs:8-21 | `AlwaysPass` and the constraint mock are Ok; `AlwaysFail` is the always-fail error |
| Constraint.AlwaysVerdictIsFixed | simulacrum/src/constraint/stock/always.rs:8-21 | no sequence of calls changes `AlwaysPass` or `AlwaysFail` or their verdict |
| Constraint.MockSatisfiedByACall | simulacrum_mock/src/constraint/mod.rs:41-57 | after at least one call the mock still verifies Ok, keeps its expected flag, and no longer panics when dropped |
| ConstraintResult.Display | simulacrum_mock/src/constraint/result.rs:16-34 | a custom error prints its message; a parameter mismatch prints the fixed header, the expected message, the fixed "Received" header, and the received message last |
| ConstraintResult.CountMessagesIdentifyError | simulacrum_mock/src/constraint/result.rs:20-25 | two call-count errors that print the same are the same error (kind and count) |
| ExpectationResult.Display | simulacrum_mock/src/expectation/result.rs:14-18 | an expectation error prints the method name, then ": ", then the constraint error's text |
| Panics.Message | simulacrum_mock/src/method.rs:50-53 | each panic prints its own fixed text before and after the method name: the duplicate-expectation text cited here, the no-return-closure text of `simulacrum_mock/src/expectation/mod.rs:59` and the no-matching-expectations text of `simulacrum_mock/src/store.rs:250` |
| Panics.MessageIdentifiesPanic | simulacrum_mock/src/expectation/mod.rs:55-61 | two panics that print the same message are the same panic: the three texts tell the cases apart, and the method name is what lies between the fixed texts |
| Expectation.New | simulacrum_mock/src/expectation/mod.rs:27-34 | a new expectation has its name, no constraints, no closures, and verifies Ok |
| Expectation.Constrain | simulacrum_mock/src/expectation/mod.rs:63-67 | appends exactly one constraint after the existing ones and changes nothing else |
| Expectation.SetModification | simulacrum_mock/src/expectation/mod.rs:69-73 | installs the modification closure, replacing any earlier one |
| Expectation.SetReturn | simulacrum_mock/src/expectation/mod.rs:75-79 | installs the return closure, replacing any earlier one |
| Expectation.ConstraintsHandleCall | simulacrum_mock/src/expectation/mod.rs:41-46 | every constraint, in order, handles the same unmodified argument |
| Expectation.HandleCall | simulacrum_mock/src/expectation/mod.rs:36-53 | constraints see the argument before modification; name and closures stay; the returned argument is the modification closure's result, if one is set |
| Expectation.ReturnValueFor | simulacrum_mock/src/expectation/mod.rs:55-61 | the return closure's value for the argument; without a closure, the no-return-closure panic for this name |
| Expectation.FirstFailing | simulacrum_mock/src/expectation/mod.rs:98-106 | every constraint before the index passes, and the constraint at the index fails |
| Expectation.Verify | simulacrum_mock/src/expectation/mod.rs:98-108 | Ok iff every constraint passes; otherwise an error of some failing constraint with all earlier ones passing, tagged with the expectation's name |
| Expectation.VerifyReportsFirstFailure | simulacrum_mock/src/expectation/mod.rs:98-108 | the reported error is exactly that of the first failing constraint |
| Expectation.ConstrainKeepsEarlierVerdict | simulacrum_mock/src/expectation/mod.rs:63-67 | appending a constraint keeps an earlier failure; otherwise the verdict becomes the new constraint's |
| Expectation.HandleCallReachesConstraintMock | simulacrum_mock/src/expectation/mod.rs:133-142 | an expectation holding a mock that expects a call no longer panics on drop after one call |
| Compare.CompareSplitsIntegers | simulacrum_user/src/validators/compare.rs:11-31 | `gt(b)` accepts exactly `p > b`, `lt(b)` exactly `p < b`; both are strict, never both accept, and with equality they cover every integer |
| Compare.DescriptionsIdentifyComparison | simulacrum_user/src/validators/compare.rs:16-35 | the printed forms "> b" and "< b" determine the comparison and its bound |
| ValidatorRules.EqualRuleVerdict | simulacrum_shared/src/validator.rs:17-20 | a parameter rule on a value passes after a call sequence iff every call was made with exactly that value |
| ValidatorRules.EqualRuleReportsFirstDifference | simulacrum_shared/src/validator.rs:17-24 | when call `k` is the first to differ, the rule reports the rendering of the expected value against the rendering of call `k`'s argument |
| ValidatorRules.AnyRuleVerdict | simulacrum/src/validator/stock/trivial.rs:8-16 | a rule on `any()` passes after any call sequence, the empty one included |
| ValidatorRules.NoneRuleVerdict | simulacrum/src/validator/stock/trivial.rs:8-30 | a rule on `none()` passes iff no call was made; otherwise it reports "Always Fails" against the first call's argument |
| ValidatorRules.Tuple2WithTrivial | simulacrum/src/validator/stock/tuple.rs:42-64 | in a pair, `any()` leaves the other component's validator in charge, and `none()` in either place rejects every pair |
| ValidatorRules.Tuple2RuleVerdict | simulacrum/src/validator/stock/tuple.rs:12-17 | a rule on the pair validator (`Tuple2`) passes iff each component validator accepted its own component of every call; on failure its expected text is the pair's printed form |
| ValidatorRules.Tuple3RuleVerdict | simulacrum/src/validator/stock/tuple.rs:12-17 | a rule on the triple validator (`Tuple3`) passes iff each component validator accepted its own component of every call; on failure its expected text is the triple's printed form |
| ValidatorRules.Tuple4RuleVerdict | simulacrum/src/validator/stock/tuple.rs:12-17 | a rule on the 4-tuple validator (`Tuple4`) passes iff each component validator accepted its own component of every call; on failure its expected text is the 4-tuple's printed form |
| ValidatorRules.Tuple5RuleVerdict | simulacrum/src/validator/stock/tuple.rs:12-17 | a rule on the 5-tuple validator (`Tuple5`) passes iff each component validator accepted its own component of every call; on failure its expected text is the 5-tuple's printed form |
| ValidatorRules.Tuple6RuleVerdict | simulacrum/src/validator/stock/tuple.rs:12-17 | a rule on the 6-tuple validator (`Tuple6`) passes iff each component validator accepted its own component of every call; on failure its expected text is the 6-tuple's printed form |
| Tuple.Tuple2Prints | simulacrum/src/validator/stock/tuple.rs:19-27 | `Tuple2` prints "(", then each of its 2 component descriptions followed by ", ", then ")" |
| Tuple.Tuple3Prints | simulacrum/src/validator/stock/tuple.rs:19-27 | `Tuple3` prints "(", then each of its 3 component descriptions followed by ", ", then ")" |
| Tuple.Tuple4Prints | simulacrum/src/validator/stock/tuple.rs:19-27 | `Tuple4` prints "(", then each of its 4 component descriptions followed by ", ", then ")" |
| Tuple.Tuple5Prints | simulacrum/src/validator/stock/tuple.rs:19-27 | `Tuple5` prints "(", then each of its 5 component descriptions followed by ", ", then ")" |
| Tuple.Tuple6Prints | simulacrum/src/validator/stock/tuple.rs:19-27 | `Tuple6` prints "(", then each of its 6 component descriptions followed by ", ", then ")" |
| Store.FirstFailingId | simulacrum_mock/src/store.rs:141-150 | every id before the position passes, and the id at the position fails |
| Store.EraVerdict | simulacrum_mock/src/store.rs:140-150 | an era passes iff all its expectations pass; otherwise it reports a failing expectation with all earlier ones passing |
| Store.FirstFailingEra | simulacrum_mock/src/store.rs:134-151 | every era from the start up to the index passes, and the era at the index fails |
| Store.VerifyFrom | simulacrum_mock/src/store.rs:126-154 | the cursor never moves back; a cursor at or past the end is kept, with Ok; Ok iff every era from the cursor passes, leaving the cursor on the last era; on failure, the cursor rests on the first failing era and its error is returned |
| Store.VerifyIdempotent | simulacrum_mock/src/store.rs:126-154 | verifying twice with nothing in between gives the same result and cursor |
| Store.FreshStoreVerifiesOk | simulacrum_mock/src/store.rs:297-304 | a store with one empty era verifies Ok and keeps cursor 0 |
| Store.NoAdvancePastFailingEra | simulacrum_mock/src/store.rs:134-151 | while an era at or after the cursor fails, verification fails and the cursor stays at or before it |
| Store.EagerAdvance | simulacrum_mock/src/store.rs:94-99 | once all eras before `j` pass, one verification moves the cursor at least to `j` |
| Store.IdsNamed | simulacrum_mock/src/store.rs:75-78 | the kept ids come from the list and carry the name, and every id of the list with the name is kept |
| Store.MatchedIds | simulacrum_mock/src/store.rs:72-91 | no ids past the end; otherwise exactly the cursor era's ids with the called name |
| Store.CompletedStoreStillMatchesLastEra | simulacrum_mock/src/store.rs:134-136 | after a full pass, a call matches exactly the last era's ids with the called name, so it matches nothing when no expectation there carries that name, in particular when the era is empty |
| Store.DeliverCall | simulacrum_mock/src/store.rs:227-233 | delivering a call keeps the arena's size and names and leaves every unmatched expectation unchanged |
| Store.DeliverToOne | simulacrum_mock/src/store.rs:227-233 | a call matched by one id is handled by that expectation exactly once |
| Store.DeliverCallReachesEach | simulacrum_mock/src/store.rs:227-233 | for a list of distinct ids, the `j`-th id ends as its expectation after one call with the argument as the modifiers of the `j` ids before it left it |
| Store.ExpectationStore.constructor | simulacrum_mock/src/store.rs:23-30 | one empty era, no expectations, cursor 0 |
| Store.ExpectationStore.Add | simulacrum_mock/src/store.rs:102-115 | the new id is the arena's next index; it is appended to the last era only; the cursor is unchanged |
| Store.ExpectationStore.NewEra | simulacrum_mock/src/store.rs:118-123 | appends one empty era without moving the cursor |
| Store.VerifyEra | simulacrum_mock/src/store.rs:140-150 | checking one era's expectations in order gives the era's verdict: Ok iff all pass, else the first failure |
| Store.ExpectationStore.Verify | simulacrum_mock/src/store.rs:126-154 | result and new cursor are those of `VerifyFrom` from the old cursor |
| Store.ExpectationStore.AdvanceEra | simulacrum_mock/src/store.rs:96-99 | moves the cursor as verification does and changes nothing else |
| Store.ExpectationStore.HasExpectationForMethodInCurrentEra | simulacrum_mock/src/store.rs:40-55 | advances the cursor, then answers whether the last era already holds an expectation with the name |
| Store.ExpectationStore.MatcherFor | simulacrum_mock/src/store.rs:57-92 | advances the cursor, then returns exactly the cursor era's ids with the name, in era order, with no id twice |
| Store.ExpectationStore.Constrain | simulacrum_mock/src/store.rs:186-190 | appends the constraint to the expectation with this id only |
| Store.ExpectationStore.SetModification | simulacrum_mock/src/store.rs:192-196 | sets the modification closure of the expectation with this id only |
| Store.ExpectationStore.SetReturn | simulacrum_mock/src/store.rs:198-202 | sets the return closure of the expectation with this id only |
| Store.ExpectationMatcher.WasCalled | simulacrum_mock/src/store.rs:227-233 | every matched id handles the call in order, each seeing the argument as the previous modifiers left it |
| Store.ExpectationMatcher.WasCalledReturning | simulacrum_mock/src/store.rs:243-252 | only the last matched id handles the call and produces the value; no match is the no-matching-expectations panic, with nothing changed |
| Method.Counted | simulacrum_mock/src/method.rs:79-80 | the counted expectation carries the name, exactly one count rule for the given number, and no closures |
| Method.New | simulacrum_mock/src/method.rs:48-64 | advances the cursor, then panics with the duplicate-expectation error iff the last era already holds the name |
| Method.Method.CalledTimes | simulacrum_mock/src/method.rs:77-86 | registers exactly one new expectation, with one count rule for `calls`, at the end of the last era, and tracks its id |
| Method.Method.CalledNever | simulacrum_mock/src/method.rs:67-69 | the same as registering with a count of zero |
| Method.Method.CalledOnce | simulacrum_mock/src/method.rs:71-74 | the same as registering with a count of one |
| Method.Method.CalledAny | simulacrum_mock/src/method.rs:89-97 | registers exactly one new expectation with no constraint |
| Method.TrackedMethod.With | simulacrum_mock/src/method.rs:117-127 | appends one parameter rule for the validator to the tracked expectation and returns the same tracked id |
| Method.TrackedMethod.Modifying | simulacrum_mock/src/method.rs:132-141 | sets or replaces the tracked expectation's modification closure; same tracked id |
| Method.TrackedMethod.Returning | simulacrum_mock/src/method.rs:143-152 | sets or replaces the tracked expectation's return closure; same tracked id |
| Mock.Expectations.constructor | simulacrum_mock/src/mock.rs:19-23 | a new mock owns a fresh store with one empty era |
| Mock.Expectations.Expect | simulacrum_mock/src/mock.rs:27-32 | advances the cursor; the duplicate panic iff the last era holds the name, else a builder on this store |
| Mock.Expectations.Then | simulacrum_mock/src/mock.rs:42-45 | appends one empty era; the cursor stays |
| Mock.Expectations.WasCalled | simulacrum_mock/src/mock.rs:51-58 | advances the cursor, then delivers the call to the ids matched in the new cursor's era |
| Mock.Expectations.WasCalledReturning | simulacrum_mock/src/mock.rs:61-68 | advances the cursor; the last matched id alone handles the call and returns; no match is the panic |
| Mock.Expectations.Verify | simulacrum_mock/src/mock.rs:82-86 | the store's verdict from the current cursor |
| MockScenarios.CalledTimesRun | simulacrum_mock/src/mock.rs:110-162 | `called_times(n)` then `k` calls verifies iff `k == n`; otherwise too few (`n - k`) or too many (`k - n`) for "nom" |
| MockScenarios.CalledAnyRun | simulacrum_mock/src/mock.rs:164-177 | `called_any()` verifies after any number of calls |
| MockScenarios.ParamRun | simulacrum_mock/src/mock.rs:179-195 | `called_once().with(gt(5))` and one call with `x` verifies iff `x > 5`; otherwise mismatched "> 5" against the rendering of `x` |
| MockScenarios.ReturningRun | simulacrum_mock/src/mock.rs:197-207 | `called_any().returning(\|_\| 5)` yields 5, and the mock verifies |
| MockScenarios.NoMatchRun | simulacrum_mock/src/mock.rs:208-216 | requesting a value with nothing registered is the no-matching-expectations panic |
| MockScenarios.NoReturnClosureRun | simulacrum_mock/src/expectation/mod.rs:191-199 | requesting a value from an expectation without a return closure is the no-return-closure panic |
| MockScenarios.ModifyingRun | simulacrum_mock/src/mock.rs:218-233 | `modifying(\|arg\| *arg = 3)` leaves the caller's argument at 3 |
| MockScenarios.DuplicateRun | simulacrum_mock/src/mock.rs:363-374 | a second registration of "eh" in one era is the duplicate panic; after `then()` it is accepted |
| MockScenarios.OrderRun | simulacrum_mock/src/mock.rs:292-311 | with "eh" in era 0 and "mer" in era 1, calling eh then mer verifies; mer first is lost, and the run reports "mer" called one time too few |
| MockScenarios.EagerRun | simulacrum_mock/src/mock.rs:376-388 | with `called_any()` for "c" in era 0 and `called_once()` for "d" in era 1, calling c then d verifies: era 0 passes before any call, so the call to c is lost and d's call completes era 1 |
| MockScenarios.EagerNeverRun | simulacrum_mock/src/mock.rs:34-41 | the same with `called_never()` for "c": an era that passes with no call is left as eagerly, and calling c then d verifies |
| MockScenarios.ThenRun | simulacrum_mock/src/mock.rs:235-243 | "fren" with `called_once().with(gt(5))` in era 0 and `called_times(second).with(lt(3))` in era 1, called with 10 then `y`: the second call reaches era 1 alone; the run verifies iff `second == 1` and `y < 3`, reports one call too few for `second == 2` as `test_then_partial_fail` (`mock.rs:257-268`) expects, and in general the count error for `second - 1` before the parameter mismatch "< 3" against `y` |
| MockScenarios.TrailingEraRun | simulacrum_mock/src/mock.rs:390-401 | `called_once()` then a trailing `then()`: any number of calls from one on verifies, and none reports one too few |

## Left out

- Threads and locking: the `Sticky` thread guard, its cross-thread panics and the `Mutex` around the store. The model is a single-owner sequential store.
- Drop-time verification and `thread::panicking()`. `Mock.Expectations.Verify` returns the verdict; the panic on drop would print `ExpectationResult.Display` of the error.
- Type erasure (`as_any`/`downcast_mut`, `ExpectationT` boxes) and the `HandleBox` arena. One store has one argument type `I` and one return type `O`; ids are arena indices.
- `DebugIt` formatting of arbitrary values. It is the function parameter `render`, given to the store when it is created and used by the parameter rule and the equality validator.
- User closures and stateful validators. Validators, modifiers and return generators are pure function values. Since a `FnMut` validator's own state is not modelled, the left-to-right short-circuiting of the tuple validators has no observable effect in the model.
- Constraints and expectations are values in the model. Each is owned by exactly one expectation or arena slot, so their `&mut self` updates become functions returning the updated value. `ExpectationStore` and the facade are classes, and the builder mutates the shared store through them.
- Times.HandleCall: does not model 64-bit overflow of the count, because counts are unbounded integers here; `i64::MIN` calls are out of reach in practice.
- Times.Verify: does not model the overflow of `x.abs()` when the count is `i64::MIN`, which `called_times(i64::MIN)` reaches without any call; the model reports too-many with the exact magnitude `2^63`, because counts are unbounded integers here.
- `Tuple` and `Trivial` implement the older `Validator` trait of `simulacrum/src/validator`, which has no `print`; the model uses their `Debug` text (`tuple.rs:19-27`, `trivial.rs:22-30`) as the description that `Params` reports when they are used in a parameter rule.
- Compare.Gt and Compare.Lt: are modelled for integer parameters only, printed in decimal, because `PartialOrd` and `Debug` on arbitrary types are not part of this model.
- `ExpectationEditor::verify` and the `exp_count`/`era_count`/`id_count` test helpers are not modelled; they are unused accessors. `get_mut` and the `ExpectationEditor` it returns are folded into the store's setters (`Constrain`/`SetModification`/`SetReturn`), which take the expectation id directly.
- `ExpectationT::name` is the `name` field of the expectation datatype.
- The raw-pointer deref validators, the closure-wrapping validator, and the code-generating macros are not part of this model.
- Scenario tests with several expectations in one era or with more than two eras (`test_then_never`, `test_then_multi_call`, `test_then_specific`, `test_empty_era_leading`, `test_empty_era_middle`) are not written as runs, and `test_then_wrong_order_fail` is reduced to one expectation per era in `MockScenarios.OrderRun`. For them, which expectation a call reaches is stated for all stores by `Store.MatchedIds`, and how the cursor moves by `Store.VerifyFrom`, `Store.EagerAdvance` and `Store.NoAdvancePastFailingEra`.

=== FILE: compare.dfy ===
/** The `gt` and `lt` validators, over integers. */
module Compare {
  import opened Validator
  import Decimal

  /** Parameters must be strictly greater than `bound`. */
  function Gt(bound: int): Validator<int>
  {
    Validator(param => param > bound, "> " + Decimal.IntToString(bound))
  }

  /** Parameters must be strictly less than `bound`. */
  function Lt(bound: int): Validator<int>
  {
    Validator(param => param < bound, "< " + Decimal.IntToString(bound))
  }

  /**
   * Against one bound, every parameter is accepted by exactly one of `gt`,
   * `lt` and the equality validator: both comparisons are strict, and no
   * parameter passes both.
   */
  lemma CompareSplitsIntegers(bound: int, param: int)
    ensures Gt(bound).validate(param) <==> param > bound
    ensures Lt(bound).validate(param) <==> param < bound
    ensures !(Gt(bound).validate(param) && Lt(bound).validate(param))
    ensures !Gt(bound).validate(bound) && !Lt(bound).validate(bound)
    ensures Gt(bound).validate(param) || Lt(bound).validate(param)
            || Equal(bound, Decimal.IntToString).validate(param)
  {
  }

  /** The printed pass conditions tell the comparison and the bound apart. */
  lemma DescriptionsIdentifyComparison(a: int, b: int)
    ensures Gt(a).description == Gt(b).description ==> a == b
    ensures Lt(a).description == Lt(b).description ==> a == b
    ensures Gt(a).description != Lt(b).description
  {
    var ga, gb := Gt(a).description, Gt(b).description;
    if ga == gb {
      assert Decimal.IntToString(a) == ga[2..] == Decimal.IntToString(b);
      Decimal.IntToStringInjective(a, b);
    }
    var la, lb := Lt(a).description, Lt(b).description;
    if la == lb {
      assert Decimal.IntToString(a) == la[2..] == Decimal.IntToString(b);
      Decimal.IntToStringInjective(a, b);
    }
    assert ga[0] == '>' && Lt(b).description[0] == '<';
  }
}

=== FILE: constraint.dfy ===
/**
 * The `Constraint` interface: one pass/fail rule attached to an expectation.
 * The Rust trait objects become one sum type; each variant carries the state
 * of one implementation.
 */
module Constraint {
  import opened Wrappers
  import CR = ConstraintResult
  import Times
  import Params

  /** The test double for the interface: two flags, checked when it is dropped. */
  datatype ConstraintMock = ConstraintMock(handleCallExpected: bool, handleCallCalled: bool)

  function NewConstraintMock(): (m: ConstraintMock)
    ensures !m.handleCallExpected && !m.handleCallCalled
  {
    ConstraintMock(false, false)
  }

  /** Sets the expected flag only. */
  function ExpectHandleCall(m: ConstraintMock): (m': ConstraintMock)
    ensures m'.handleCallExpected && m'.handleCallCalled == m.handleCallCalled
  {
    m.(handleCallExpected := true)
  }

  /** Dropping the mock panics iff a call was expected but none arrived. */
  predicate PanicsOnDrop(m: ConstraintMock)
  {
    m.handleCallExpected && !m.handleCallCalled
  }

  datatype Constraint<!I> =
    | TimesRule(times: Times.Times)
    | ParamsRule(params: Params.Params<I>)
    | AlwaysPass
    | AlwaysFail
    | MockRule(mock: ConstraintMock)

  /**
   * One matching call. `AlwaysPass` and `AlwaysFail` keep the interface's
   * default, which does nothing.
   */
  function HandleCall<I>(c: Constraint<I>, params: I): (c': Constraint<I>)
    ensures c.TimesRule? <==> c'.TimesRule?
    ensures c.ParamsRule? <==> c'.ParamsRule?
    ensures c.MockRule? <==> c'.MockRule?
    ensures c.AlwaysPass? || c.AlwaysFail? ==> c' == c
    ensures c.MockRule? ==> c'.mock == ConstraintMock(c.mock.handleCallExpected, true)
  {
    match c
    case TimesRule(t) => TimesRule(Times.HandleCall(t))
    case ParamsRule(p) => ParamsRule(Params.HandleCall(p, params))
    case AlwaysPass => c
    case AlwaysFail => c
    case MockRule(m) => MockRule(m.(handleCallCalled := true))
  }

  /** The rule's verdict; reading it changes nothing. */
  function Verify<I>(c: Constraint<I>): (r: CR.ConstraintResult)
    ensures c.AlwaysPass? || c.MockRule? ==> r.Ok?
    ensures c.AlwaysFail? ==> r == Err(CR.AlwaysFail)
  {
    match c
    case TimesRule(t) => Times.Verify(t)
    case ParamsRule(p) => Params.Verify(p)
    case AlwaysPass => Ok(())
    case AlwaysFail => Err(CR.AlwaysFail)
    case MockRule(_) => Ok(())
  }

  /** The rule after a sequence of matching calls, in order. */
  function AfterCalls<I>(c: Constraint<I>, calls: seq<I>): Constraint<I>
    decreases |calls|
  {
    if calls == [] then c else AfterCalls(HandleCall(c, calls[0]), calls[1..])
  }

  /** No sequence of calls changes the verdict of `AlwaysPass` or `AlwaysFail`. */
  lemma {:induction false} AlwaysVerdictIsFixed<I>(c: Constraint<I>, calls: seq<I>)
    requires c.AlwaysPass? || c.AlwaysFail?
    ensures AfterCalls(c, calls) == c
    ensures Verify(AfterCalls(c, calls)) == if c.AlwaysPass? then Ok(()) else Err(CR.AlwaysFail)
    decreases |calls|
  {
    if calls != [] {
      AlwaysVerdictIsFixed(HandleCall(c, calls[0]), calls[1..]);
    }
  }

  /**
   * The mock always verifies Ok; after at least one call it no longer
   * panics when dropped.
   */
  lemma {:induction false} MockSatisfiedByACall<I>(m: ConstraintMock, calls: seq<I>)
    requires |calls| > 0
    ensures AfterCalls(MockRule(m), calls).MockRule?
    ensures AfterCalls(MockRule(m), calls).mock.handleCallExpected == m.handleCallExpected
    ensures !PanicsOnDrop(AfterCalls(MockRule(m), calls).mock)
    ensures Verify(AfterCalls(MockRule(m), calls)).Ok?
    decreases |calls|
  {
    var m' := HandleCall(MockRule(m), calls[0]).mock;
    if |calls| > 1 {
      MockSatisfiedByACall(m', calls[1..]);
    } else {
      assert AfterCalls(MockRule(m'), calls[1..]) == MockRule(m');
    }
  }
}

=== FILE: constraint_result.dfy ===
/** The errors a constraint reports, and how they are displayed. */
module ConstraintResult {
  import opened Wrappers
  import Decimal

  datatype ConstraintError =
    | AlwaysFail
    | CalledTooFewTimes(times: int)
    | CalledTooManyTimes(times: int)
    | CallNotExpected
      /** For custom constraints written by users. */
    | Custom(msg: string)
      /** The validator's description of what was expected, and the rendering of what was received. */
    | MismatchedParams(expectedMsg: string, receivedMsg: string)

  type ConstraintResult = Result<(), ConstraintError>

  const FewerSuffix := " times fewer than expected."
  const MoreSuffix := " times more than expected."
  const MismatchHeader := "Called with unexpected parameters:\n  Expected: "
  const ReceivedHeader := "\n  Received: "

  /** The `Display` rendering of an error. */
  function Display(e: ConstraintError): (s: string)
    ensures e.Custom? ==> s == e.msg
    ensures e.MismatchedParams? ==>
      && |s| == |MismatchHeader| + |e.expectedMsg| + |ReceivedHeader| + |e.receivedMsg|
      && s[..|MismatchHeader|] == MismatchHeader
      && s[|MismatchHeader|..|MismatchHeader| + |e.expectedMsg|] == e.expectedMsg
      && s[|MismatchHeader| + |e.expectedMsg|..|s| - |e.receivedMsg|] == ReceivedHeader
      && s[|s| - |e.receivedMsg|..] == e.receivedMsg
  {
    match e
    case AlwaysFail => "Expectation will always fail."
    case CalledTooFewTimes(times) => "Called " + Decimal.IntToString(times) + FewerSuffix
    case CalledTooManyTimes(times) => "Called " + Decimal.IntToString(times) + MoreSuffix
    case CallNotExpected => "Called when not expected."
    case Custom(msg) => msg
    case MismatchedParams(expectedMsg, receivedMsg) =>
      MismatchHeader + expectedMsg + ReceivedHeader + receivedMsg
  }

  /**
   * The call-count messages identify the error: two count errors that print
   * the same are the same error, so "fewer" and "more" never print alike and
   * the printed count is the carried count.
   */
  lemma CountMessagesIdentifyError(a: ConstraintError, b: ConstraintError)
    requires a.CalledTooFewTimes? || a.CalledTooManyTimes?
    requires b.CalledTooFewTimes? || b.CalledTooManyTimes?
    requires Display(a) == Display(b)
    ensures a == b
  {
    var s := Display(a);
    var sfx := CountSuffix(a);
    CountDisplayShape(a);
    CountDisplayShape(b);
    assert Decimal.IntToString(a.times) == s[7..|s| - |sfx|] == Decimal.IntToString(b.times);
    Decimal.IntToStringInjective(a.times, b.times);
  }

  /** The sentence ending of a call-count error. */
  function CountSuffix(e: ConstraintError): string
  {
    if e.CalledTooFewTimes? then FewerSuffix else MoreSuffix
  }

  /** A call-count message is "Called", the count and an ending told apart by one letter. */
  lemma CountDisplayShape(e: ConstraintError)
    requires e.CalledTooFewTimes? || e.CalledTooManyTimes?
    ensures Display(e) == "Called " + Decimal.IntToString(e.times) + CountSuffix(e)
    ensures |Display(e)| >= 16 && Display(e)[|Display(e)| - 16] == if e.CalledTooFewTimes? then 'r' else 'e'
  {
    var sfx := CountSuffix(e);
    assert FewerSuffix[|FewerSuffix| - 16] == 'r' && MoreSuffix[|MoreSuffix| - 16] == 'e';
    assert Display(e)[|Display(e)| - 16] == sfx[|sfx| - 16];
  }
}

=== FILE: decimal.dfy ===
/**
 * Decimal rendering of integers, the way Rust's `{}` and `{:?}` print an
 * `i64` or `i32`. Used by the error messages and the comparison validators.
 */
module Decimal {

  function DigitChar(d: nat): (c: char)
    requires d < 10
    ensures '0' <= c <= '9'
  {
    (48 + d) as char
  }

  /** The digits of `n`, most significant first, without leading zeros. */
  function NatToString(n: nat): (s: string)
    ensures |s| >= 1
    ensures forall k :: 0 <= k < |s| ==> '0' <= s[k] <= '9'
    ensures (n < 10) == (|s| == 1)
    decreases n
  {
    if n < 10 then [DigitChar(n)] else NatToString(n / 10) + [DigitChar(n % 10)]
  }

  /** A leading '-' for negative numbers, then the digits of the magnitude. */
  function IntToString(n: int): (s: string)
    ensures |s| >= 1
    ensures (s[0] == '-') == (n < 0)
  {
    if n < 0 then "-" + NatToString(-n) else NatToString(n)
  }

  /** Different numbers print differently. */
  lemma {:induction false} NatToStringInjective(a: nat, b: nat)
    requires NatToString(a) == NatToString(b)
    ensures a == b
    decreases a
  {
    var s := NatToString(a);
    if a >= 10 && b >= 10 {
      assert NatToString(a / 10) == s[..|s| - 1] == NatToString(b / 10);
      NatToStringInjective(a / 10, b / 10);
      assert DigitChar(a % 10) == s[|s| - 1] == DigitChar(b % 10);
    } else {
      assert a < 10 && b < 10;
      assert DigitChar(a) == s[0] == DigitChar(b);
    }
  }

  lemma IntToStringInjective(a: int, b: int)
    requires IntToString(a) == IntToString(b)
    ensures a == b
  {
    var s := IntToString(a);
    if a < 0 {
      assert NatToString(-a) == s[1..] == NatToString(-b);
      NatToStringInjective(-a, -b);
    } else {
      NatToStringInjective(a, b);
    }
  }
}

=== FILE: expectation.dfy ===
/**
 * One expectation: a method name, its constraints in declaration order, and
 * optional modification and return closures.
 */
module Expectation {
  import opened Wrappers
  import CR = ConstraintResult
  import C = Constraint
  import opened ExpectationResult
  import opened Panics

  /**
   * `modificationFn` stands for the `FnMut(&mut I)` closure (it maps the
   * argument to its new value); `returnFn` for the `FnMut(I) -> O` closure.
   */
  datatype Expectation<!I, O> = Expectation(
    name: string,
    constraints: seq<C.Constraint<I>>,
    modificationFn: Option<I -> I>,
    returnFn: Option<I -> O>)

  /** No constraints and no closures; such an expectation verifies Ok. */
  function New<I, O>(name: string): (e: Expectation<I, O>)
    ensures e.name == name && e.constraints == []
    ensures e.modificationFn.None? && e.returnFn.None?
    ensures Verify(e).Ok?
  {
    Expectation(name, [], None, None)
  }

  /** Appends exactly one constraint, after the existing ones. */
  function Constrain<I, O>(e: Expectation<I, O>, constraint: C.Constraint<I>): (e': Expectation<I, O>)
    ensures e' == e.(constraints := e.constraints + [constraint])
  {
    e.(constraints := e.constraints + [constraint])
  }

  /** Installs the modification closure, replacing any earlier one. */
  function SetModification<I, O>(e: Expectation<I, O>, f: I -> I): (e': Expectation<I, O>)
    ensures e' == e.(modificationFn := Some(f))
  {
    e.(modificationFn := Some(f))
  }

  /** Installs the return closure, replacing any earlier one. */
  function SetReturn<I, O>(e: Expectation<I, O>, f: I -> O): (e': Expectation<I, O>)
    ensures e' == e.(returnFn := Some(f))
  {
    e.(returnFn := Some(f))
  }

  /** An expectation after a call, and the argument as the call leaves it. */
  datatype Handled<!I, O> = Handled(expectation: Expectation<I, O>, params: I)

  /**
   * The meaning of `handle_call`: every constraint sees the argument as it
   * was passed in, and only then does the modification closure run.
   */
  function Called<I, O>(e: Expectation<I, O>, params: I): Handled<I, O>
  {
    Handled(
      e.(constraints := seq(|e.constraints|, k requires 0 <= k < |e.constraints| =>
                             C.HandleCall(e.constraints[k], params))),
      RunModificationBehavior(e, params))
  }

  /** The argument after the modification closure, if one is set. */
  function RunModificationBehavior<I, O>(e: Expectation<I, O>, params: I): I
  {
    match e.modificationFn
    case Some(f) => f(params)
    case None => params
  }

  /** Passes the same argument to every constraint, in declaration order. */
  method ConstraintsHandleCall<I>(constraints: seq<C.Constraint<I>>, params: I)
    returns (updated: seq<C.Constraint<I>>)
    ensures |updated| == |constraints|
    ensures forall k :: 0 <= k < |constraints| ==> updated[k] == C.HandleCall(constraints[k], params)
  {
    updated := constraints;
    var k := 0;
    while k < |updated|
      invariant 0 <= k <= |updated| == |constraints|
      invariant forall j :: 0 <= j < k ==> updated[j] == C.HandleCall(constraints[j], params)
      invariant forall j :: k <= j < |updated| ==> updated[j] == constraints[j]
    {
      updated := updated[k := C.HandleCall(updated[k], params)];
      k := k + 1;
    }
  }

  /**
   * One matching call: the constraints are updated with the unmodified
   * argument, name and closures stay, and the argument is then modified.
   */
  method HandleCall<I, O>(e: Expectation<I, O>, params: I) returns (e': Expectation<I, O>, params': I)
    ensures e'.name == e.name && e'.modificationFn == e.modificationFn && e'.returnFn == e.returnFn
    ensures |e'.constraints| == |e.constraints|
    ensures forall k :: 0 <= k < |e.constraints| ==> e'.constraints[k] == C.HandleCall(e.constraints[k], params)
    ensures params' == if e.modificationFn.Some? then e.modificationFn.value(params) else params
    ensures Handled(e', params') == Called(e, params)
  {
    var updated := ConstraintsHandleCall(e.constraints, params);
    e' := e.(constraints := updated);
    params' := RunModificationBehavior(e, params);
  }

  /**
   * Hands the (owned) argument to the return closure; without one this is
   * the fatal "no return closure" error.
   */
  function ReturnValueFor<I, O>(e: Expectation<I, O>, params: I): (r: Result<O, Panic>)
    ensures r.Err? <==> e.returnFn.None?
    ensures r.Ok? ==> r.value == e.returnFn.value(params)
    ensures r.Err? ==> r.error == NoReturnClosure(e.name)
  {
    match e.returnFn
    case Some(f) => Ok(f(params))
    case None => Err(NoReturnClosure(e.name))
  }

  /** The index of the first constraint that does not verify, or `|cs|`. */
  function FirstFailing<I>(cs: seq<C.Constraint<I>>): (k: nat)
    ensures k <= |cs|
    ensures forall j :: 0 <= j < k ==> C.Verify(cs[j]).Ok?
    ensures k < |cs| ==> C.Verify(cs[k]).Err?
    decreases |cs|
  {
    if cs == [] then 0
    else if C.Verify(cs[0]).Err? then 0
    else 1 + FirstFailing(cs[1..])
  }

  /**
   * Ok iff every constraint verifies Ok; otherwise the error of the first
   * failing constraint, tagged with this expectation's name.
   */
  function Verify<I, O>(e: Expectation<I, O>): (r: ExpectationResult)
    ensures r.Ok? <==> forall k :: 0 <= k < |e.constraints| ==> C.Verify(e.constraints[k]).Ok?
    ensures r.Err? ==> r.error.methodName == e.name
    ensures r.Err? ==>
      exists k :: 0 <= k < |e.constraints| && C.Verify(e.constraints[k]) == Err(r.error.constraintErr)
                  && forall j :: 0 <= j < k ==> C.Verify(e.constraints[j]).Ok?
  {
    var k := FirstFailing(e.constraints);
    if k < |e.constraints| then Err(ExpectationError(C.Verify(e.constraints[k]).error, e.name))
    else Ok(())
  }

  /** Whichever constraint fails first is the one reported. */
  lemma VerifyReportsFirstFailure<I, O>(e: Expectation<I, O>, k: nat)
    requires k < |e.constraints| && C.Verify(e.constraints[k]).Err?
    requires forall j :: 0 <= j < k ==> C.Verify(e.constraints[j]).Ok?
    ensures Verify(e) == Err(ExpectationError(C.Verify(e.constraints[k]).error, e.name))
  {
  }

  /**
   * Appending a constraint never hides an earlier failure: the verdict is
   * the old one if that failed, and otherwise the new constraint's.
   */
  lemma ConstrainKeepsEarlierVerdict<I, O>(e: Expectation<I, O>, c: C.Constraint<I>)
    ensures Verify(e).Err? ==> Verify(Constrain(e, c)) == Verify(e)
    ensures Verify(e).Ok? && C.Verify(c).Ok? ==> Verify(Constrain(e, c)).Ok?
    ensures Verify(e).Ok? && C.Verify(c).Err? ==>
      Verify(Constrain(e, c)) == Err(ExpectationError(C.Verify(c).error, e.name))
  {
    var e' := Constrain(e, c);
    var k := FirstFailing(e.constraints);
    if k < |e.constraints| {
      VerifyReportsFirstFailure(e', k);
    } else if C.Verify(c).Err? {
      VerifyReportsFirstFailure(e', |e.constraints|);
    } else {
      assert forall j :: 0 <= j < |e'.constraints| ==> C.Verify(e'.constraints[j]).Ok? by {
        forall j | 0 <= j < |e'.constraints| ensures C.Verify(e'.constraints[j]).Ok? {
          if j < |e.constraints| { assert e'.constraints[j] == e.constraints[j]; }
        }
      }
    }
  }

  /** An expectation holding a constraint mock that expects a call: one call satisfies it. */
  lemma HandleCallReachesConstraintMock<I, O>(name: string, params: I)
    ensures var e := Constrain(New<I, O>(name), C.MockRule(C.ExpectHandleCall(C.NewConstraintMock())));
            var h := Called(e, params);
            && C.PanicsOnDrop(e.constraints[0].mock)
            && h.expectation.constraints[0].MockRule?
            && !C.PanicsOnDrop(h.expectation.constraints[0].mock)
  {
  }
}

=== FILE: expectation_result.dfy ===
/** The error an expectation reports: the failing constraint's error and the method's name. */
module ExpectationResult {
  import opened Wrappers
  import CR = ConstraintResult

  /** Equal iff both fields are equal (structural equality of the datatype). */
  datatype ExpectationError = ExpectationError(constraintErr: CR.ConstraintError, methodName: string)

  type ExpectationResult = Result<(), ExpectationError>

  /** The `Display` rendering: the method name, ": ", then the constraint error. */
  function Display(e: ExpectationError): (s: string)
    ensures |s| == |e.methodName| + 2 + |CR.Display(e.constraintErr)|
    ensures s[..|e.methodName|] == e.methodName
    ensures s[|e.methodName|..|e.methodName| + 2] == ": "
    ensures s[|e.methodName| + 2..] == CR.Display(e.constraintErr)
  {
    e.methodName + ": " + CR.Display(e.constraintErr)
  }
}

=== FILE: method.dfy ===
/**
 * The registration builder: `expect(name)` yields a `Method`, which turns into
 * a `TrackedMethod` once a call count is chosen; the tracked method then
 * attaches parameter rules and behaviours to the expectation it registered.
 */
module Method {
  import opened Wrappers
  import opened Panics
  import C = Constraint
  import E = Expectation
  import Times
  import Params
  import opened Validator
  import opened Store

  /** The expectation registered for `name` with the given call-count rule. */
  function Counted<I, O>(name: string, calls: int): (e: E.Expectation<I, O>)
    ensures e.name == name && e.modificationFn.None? && e.returnFn.None?
    ensures e.constraints == [C.TimesRule(Times.New(calls))]
  {
    E.Constrain(E.New(name), C.TimesRule(Times.New(calls)))
  }

  /**
   * Opening a registration for `name` first advances the cursor, then fails
   * iff the last era already holds an expectation for `name`.
   */
  method New<I, O>(store: ExpectationStore<I, O>, name: string) returns (r: Result<Method<I, O>, Panic>)
    requires store.Valid()
    modifies store`currentUnverifiedEra
    ensures store.Valid()
    ensures store.currentUnverifiedEra
            == VerifyFrom(store.eras, store.expectations, old(store.currentUnverifiedEra)).cursor
    ensures r.Err? <==> LastEraHasName(store.eras, store.expectations, name)
    ensures r.Err? ==> r.error == DuplicateExpectation(name)
    ensures r.Ok? ==> r.value == Method(store, name)
  {
    var duplicate := store.HasExpectationForMethodInCurrentEra(name);
    if duplicate {
      r := Err(DuplicateExpectation(name));
    } else {
      r := Ok(Method(store, name));
    }
  }

  datatype Method<I, O> = Method(store: ExpectationStore<I, O>, name: string)
  {
    /**
     * Registers an expectation for `name` counting exactly `calls` calls, as
     * the next id and at the end of the last era.
     */
    method CalledTimes(calls: int) returns (t: TrackedMethod<I, O>)
      requires store.Valid()
      modifies store`eras, store`expectations
      ensures store.Valid()
      ensures t == TrackedMethod(old(|store.expectations|), this)
      ensures store.expectations == old(store.expectations) + [Counted(name, calls)]
      ensures store.eras == old(store.eras)[|old(store.eras)| - 1 := old(store.eras[|store.eras| - 1]) + [t.id]]
      ensures store.currentUnverifiedEra == old(store.currentUnverifiedEra)
    {
      var id := store.Add(Counted(name, calls));
      t := TrackedMethod(id, this);
    }

    /** `CalledTimes(0)`. */
    method CalledNever() returns (t: TrackedMethod<I, O>)
      requires store.Valid()
      modifies store`eras, store`expectations
      ensures store.Valid()
      ensures t == TrackedMethod(old(|store.expectations|), this)
      ensures store.expectations == old(store.expectations) + [Counted(name, 0)]
      ensures store.eras == old(store.eras)[|old(store.eras)| - 1 := old(store.eras[|store.eras| - 1]) + [t.id]]
      ensures store.currentUnverifiedEra == old(store.currentUnverifiedEra)
    {
      t := CalledTimes(0);
    }

    /** `CalledTimes(1)`. */
    method CalledOnce() returns (t: TrackedMethod<I, O>)
      requires store.Valid()
      modifies store`eras, store`expectations
      ensures store.Valid()
      ensures t == TrackedMethod(old(|store.expectations|), this)
      ensures store.expectations == old(store.expectations) + [Counted(name, 1)]
      ensures store.eras == old(store.eras)[|old(store.eras)| - 1 := old(store.eras[|store.eras| - 1]) + [t.id]]
      ensures store.currentUnverifiedEra == old(store.currentUnverifiedEra)
    {
      t := CalledTimes(1);
    }

    /** Registers an expectation for `name` with no constraint at all. */
    method CalledAny() returns (t: TrackedMethod<I, O>)
      requires store.Valid()
      modifies store`eras, store`expectations
      ensures store.Valid()
      ensures t == TrackedMethod(old(|store.expectations|), this)
      ensures store.expectations == old(store.expectations) + [E.New(name)]
      ensures store.eras == old(store.eras)[|old(store.eras)| - 1 := old(store.eras[|store.eras| - 1]) + [t.id]]
      ensures store.currentUnverifiedEra == old(store.currentUnverifiedEra)
    {
      var id := store.Add(E.New(name));
      t := TrackedMethod(id, this);
    }
  }

  /** A registered expectation, by id, together with the builder that made it. */
  datatype TrackedMethod<I, O> = TrackedMethod(id: Id, builder: Method<I, O>)
  {
    /** Appends a parameter rule built from `validator` to the expectation. */
    method With(validator: Validator<I>) returns (t: TrackedMethod<I, O>)
      requires builder.store.Valid() && id < |builder.store.expectations|
      modifies builder.store`expectations
      ensures builder.store.Valid()
      ensures t == this
      ensures builder.store.expectations
              == old(builder.store.expectations)[id := E.Constrain(old(builder.store.expectations[id]),
                                                                   C.ParamsRule(Params.New(validator, builder.store.render)))]
    {
      builder.store.Constrain(id, C.ParamsRule(Params.New(validator, builder.store.render)));
      t := this;
    }

    /** Sets the side effect run on the argument at every matched call. */
    method Modifying(f: I -> I) returns (t: TrackedMethod<I, O>)
      requires builder.store.Valid() && id < |builder.store.expectations|
      modifies builder.store`expectations
      ensures builder.store.Valid()
      ensures t == this
      ensures builder.store.expectations
              == old(builder.store.expectations)[id := E.SetModification(old(builder.store.expectations[id]), f)]
    {
      builder.store.SetModification(id, f);
      t := this;
    }

    /** Sets the closure that produces the return value. */
    method Returning(f: I -> O) returns (t: TrackedMethod<I, O>)
      requires builder.store.Valid() && id < |builder.store.expectations|
      modifies builder.store`expectations
      ensures builder.store.Valid()
      ensures t == this
      ensures builder.store.expectations
              == old(builder.store.expectations)[id := E.SetReturn(old(builder.store.expectations[id]), f)]
    {
      builder.store.SetReturn(id, f);
      t := this;
    }
  }
}

=== FILE: mock.dfy ===
/**
 * The facade a mock object embeds: it owns one store and forwards
 * registration, era boundaries, calls and the final verification to it.
 */
module Mock {
  import opened Wrappers
  import opened Panics
  import opened ExpectationResult
  import M = Method
  import E = Expectation
  import opened Store

  class Expectations<I, O> {
    const store: ExpectationStore<I, O>

    ghost predicate Valid()
      reads this, store
    {
      store.Valid()
    }

    /** A mock with one empty era and no expectations. */
    constructor (render: I -> string)
      ensures Valid() && fresh(store)
      ensures store.currentUnverifiedEra == 0 && store.eras == [[]] && store.expectations == []
      ensures store.render == render
    {
      store := new ExpectationStore(render);
    }

    /** Opens a registration for `name`; fails on a second one in the same era. */
    method Expect(name: string) returns (r: Result<M.Method<I, O>, Panic>)
      requires Valid()
      modifies store`currentUnverifiedEra
      ensures Valid()
      ensures store.currentUnverifiedEra
              == VerifyFrom(store.eras, store.expectations, old(store.currentUnverifiedEra)).cursor
      ensures r == if LastEraHasName(store.eras, store.expectations, name)
                   then Err(DuplicateExpectation(name)) else Ok(M.Method(store, name))
    {
      r := M.New(store, name);
    }

    /** Starts a new era: later registrations wait for the earlier eras. */
    method Then()
      requires Valid()
      modifies store`eras
      ensures Valid()
      ensures store.eras == old(store.eras) + [[]]
      ensures store.currentUnverifiedEra == old(store.currentUnverifiedEra)
    {
      store.NewEra();
    }

    /**
     * Reports a call: advances the cursor, then hands the call to every
     * expectation for `name` in the cursor's era. Returns the argument as the
     * modification closures left it.
     */
    method WasCalled(name: string, params: I) returns (params': I)
      requires Valid()
      modifies store`currentUnverifiedEra, store`expectations
      ensures Valid()
      ensures store.eras == old(store.eras)
      ensures store.currentUnverifiedEra
              == VerifyFrom(store.eras, old(store.expectations), old(store.currentUnverifiedEra)).cursor
      ensures Delivery(store.expectations, params')
              == DeliverCall(old(store.expectations),
                             MatchedIds(store.eras, old(store.expectations), store.currentUnverifiedEra, name), params)
    {
      var matcher := store.MatcherFor(name);
      params' := matcher.WasCalled(params);
    }

    /**
     * Reports a call whose result is needed: the last matching expectation
     * alone handles it and produces the value; no match is a fatal error.
     */
    method WasCalledReturning(name: string, params: I) returns (r: Result<O, Panic>)
      requires Valid()
      modifies store`currentUnverifiedEra, store`expectations
      ensures Valid()
      ensures store.eras == old(store.eras)
      ensures store.currentUnverifiedEra
              == VerifyFrom(store.eras, old(store.expectations), old(store.currentUnverifiedEra)).cursor
      ensures var ids := MatchedIds(store.eras, old(store.expectations), store.currentUnverifiedEra, name);
        && (ids == [] ==> r == Err(NoMatchingExpectation(name)) && store.expectations == old(store.expectations))
        && (ids != [] ==>
              var h := E.Called(old(store.expectations)[ids[|ids| - 1]], params);
              && store.expectations == old(store.expectations)[ids[|ids| - 1] := h.expectation]
              && r == E.ReturnValueFor(h.expectation, h.params))
    {
      var matcher := store.MatcherFor(name);
      r := matcher.WasCalledReturning(params);
    }

    /** Verifies the eras from the cursor on; an error is what dropping the mock panics with. */
    method Verify() returns (status: ExpectationResult)
      requires Valid()
      modifies store`currentUnverifiedEra
      ensures Valid()
      ensures Verdict(status, store.currentUnverifiedEra)
              == VerifyFrom(store.eras, store.expectations, old(store.currentUnverifiedEra))
    {
      status := store.Verify();
    }
  }
}

=== FILE: mock_scenarios.dfy ===
/**
 * Whole-mock runs: each method builds a fresh mock, registers expectations,
 * reports calls and verifies, and its contract states what the run yields.
 * They follow the usage the library's own test suite exercises.
 */
module MockScenarios {
  import opened Wrappers
  import opened Panics
  import opened ConstraintResult
  import opened ExpectationResult
  import C = Constraint
  import E = Expectation
  import Times
  import Params
  import Compare
  import Decimal
  import M = Method
  import opened Store
  import opened Mock
  import opened Validator

  // ---------------------------------------------------------------------------
  // Facts about one counted expectation

  /** A call to a counted expectation lowers its count by one and leaves the argument alone. */
  lemma CountedAfterCall<I, O>(name: string, calls: int, params: I)
    ensures E.Called(M.Counted<I, O>(name, calls), params) == E.Handled(M.Counted(name, calls - 1), params)
  {
  }

  /** A counted expectation passes iff its count reached zero; else it says how far off it is. */
  lemma CountedVerdict<I, O>(name: string, calls: int)
    ensures E.Verify(M.Counted<I, O>(name, calls))
            == if calls == 0 then Ok(())
               else if calls > 0 then Err(ExpectationError(CalledTooFewTimes(calls), name))
               else Err(ExpectationError(CalledTooManyTimes(-calls), name))
  {
  }

  /** With one era holding only expectation 0, verification reports that expectation's verdict. */
  lemma SoleExpectationVerdict<I, O>(e: E.Expectation<I, O>)
    ensures ErasWellFormed([[0]], 1)
    ensures VerifyFrom([[0]], [e], 0) == Verdict(E.Verify(e), 0)
  {
  }

  /** With one era holding only expectation 0, a call to its name reaches it alone. */
  lemma SoleExpectationCall<I, O>(e: E.Expectation<I, O>, params: I)
    ensures ErasWellFormed([[0]], 1)
    ensures MatchedIds([[0]], [e], 0, e.name) == [0]
    ensures DeliverCall([e], [0], params) == Delivery([E.Called(e, params).expectation], E.Called(e, params).params)
  {
  }

  // ---------------------------------------------------------------------------
  // Steps shared by the runs

  /** A fresh mock with `expect(name).called_times(n)` registered: one era holding id 0. */
  method MockCalledTimes<I, O>(render: I -> string, name: string, n: int)
    returns (mock: Expectations<I, O>, t: M.TrackedMethod<I, O>)
    ensures fresh(mock.store) && mock.Valid()
    ensures t == M.TrackedMethod(0, M.Method(mock.store, name))
    ensures mock.store.eras == [[0]] && mock.store.currentUnverifiedEra == 0
    ensures mock.store.expectations == [M.Counted(name, n)]
    ensures mock.store.render == render
  {
    mock := new Expectations(render);
    FreshStoreVerifiesOk<I, O>([]);
    var m := mock.Expect(name);
    t := m.value.CalledTimes(n);
    assert mock.store.eras[0] == [0];
  }

  /** A call reported to a mock whose only era holds only expectation 0, named `name`. */
  method CallSole<I, O>(mock: Expectations<I, O>, name: string, params: I) returns (params': I)
    requires mock.Valid() && mock.store.eras == [[0]] && mock.store.currentUnverifiedEra == 0
    requires |mock.store.expectations| == 1 && mock.store.expectations[0].name == name
    modifies mock.store`currentUnverifiedEra, mock.store`expectations
    ensures mock.Valid() && mock.store.eras == [[0]] && mock.store.currentUnverifiedEra == 0
    ensures |mock.store.expectations| == 1
    ensures E.Handled(mock.store.expectations[0], params') == E.Called(old(mock.store.expectations[0]), params)
  {
    SoleExpectationVerdict(mock.store.expectations[0]);
    SoleExpectationCall(mock.store.expectations[0], params);
    params' := mock.WasCalled(name, params);
  }

  /** A call that needs a value, reported to a mock whose only era holds only expectation 0. */
  method CallSoleReturning<I, O>(mock: Expectations<I, O>, name: string, params: I) returns (r: Result<O, Panic>)
    requires mock.Valid() && mock.store.eras == [[0]] && mock.store.currentUnverifiedEra == 0
    requires |mock.store.expectations| == 1 && mock.store.expectations[0].name == name
    modifies mock.store`currentUnverifiedEra, mock.store`expectations
    ensures mock.Valid() && mock.store.eras == [[0]] && mock.store.currentUnverifiedEra == 0
    ensures var h := E.Called(old(mock.store.expectations[0]), params);
      mock.store.expectations == [h.expectation] && r == E.ReturnValueFor(h.expectation, h.params)
  {
    ghost var e0 := mock.store.expectations[0];
    SoleExpectationVerdict(e0);
    SoleExpectationCall(e0, params);
    assert mock.store.expectations == [e0];
    r := mock.WasCalledReturning(name, params);
    assert mock.store.currentUnverifiedEra == 0;
    assert MatchedIds(mock.store.eras, [e0], 0, name) == [0];
  }

  /** Verifying a mock whose only era holds only expectation 0 reports that expectation's verdict. */
  method VerifySole<I, O>(mock: Expectations<I, O>) returns (r: ExpectationResult)
    requires mock.Valid() && mock.store.eras == [[0]] && mock.store.currentUnverifiedEra == 0
    requires |mock.store.expectations| == 1
    modifies mock.store`currentUnverifiedEra
    ensures r == E.Verify(old(mock.store.expectations[0]))
  {
    SoleExpectationVerdict(mock.store.expectations[0]);
    r := mock.Verify();
  }

  // ---------------------------------------------------------------------------
  // Runs

  /**
   * `expect("nom").called_times(n)` followed by `k` calls: the mock verifies
   * iff `k == n`, and otherwise names the method and the shortfall or excess.
   */
  method CalledTimesRun(n: int, k: nat) returns (r: ExpectationResult)
    ensures r.Ok? <==> k == n
    ensures k < n ==> r == Err(ExpectationError(CalledTooFewTimes(n - k), "nom"))
    ensures k > n ==> r == Err(ExpectationError(CalledTooManyTimes(k - n), "nom"))
  {
    var mock, _ := MockCalledTimes<(), ()>(_ => "()", "nom", n);
    var i := 0;
    while i < k
      invariant 0 <= i <= k
      invariant mock.Valid()
      invariant mock.store.eras == [[0]] && mock.store.currentUnverifiedEra == 0
      invariant mock.store.expectations == [M.Counted("nom", n - i)]
    {
      CountedAfterCall<(), ()>("nom", n - i, ());
      var _ := CallSole(mock, "nom", ());
      i := i + 1;
    }
    CountedVerdict<(), ()>("nom", n - k);
    r := VerifySole(mock);
  }

  /**
   * `expect("doog").called_once().with(gt(5))` and one call with `x`: the
   * mock verifies iff `x > 5`; otherwise the error shows the rule and `x`.
   */
  method ParamRun(x: int) returns (r: ExpectationResult)
    ensures r.Ok? <==> x > 5
    ensures r.Err? ==> r == Err(ExpectationError(MismatchedParams("> 5", Decimal.IntToString(x)), "doog"))
  {
    var mock, t := MockCalledTimes<int, ()>(Decimal.IntToString, "doog", 1);
    t := t.With(Compare.Gt(5));
    var p := Params.New(Compare.Gt(5), Decimal.IntToString);
    var e := E.Constrain(M.Counted<int, ()>("doog", 1), C.ParamsRule(p));
    assert mock.store.expectations == [e];
    var _ := CallSole(mock, "doog", x);
    var called := E.Called(e, x).expectation;
    assert called.constraints == [C.TimesRule(Times.Times(0)), C.ParamsRule(Params.HandleCall(p, x))];
    assert Decimal.IntToString(5) == "5";
    assert Compare.Gt(5).description == "> 5";
    if x <= 5 {
      assert C.Verify(called.constraints[1]) == Err(MismatchedParams("> 5", Decimal.IntToString(x)));
      E.VerifyReportsFirstFailure(called, 1);
    }
    r := VerifySole(mock);
  }

  /** `called_once()` without `returning`: a call that needs a value is the fatal "no return closure" error. */
  method NoReturnClosureRun() returns (r: Result<int, Panic>)
    ensures r == Err(NoReturnClosure("boye"))
  {
    var mock, _ := MockCalledTimes<(), int>(_ => "()", "boye", 1);
    SoleExpectationCall(mock.store.expectations[0], ());
    r := mock.WasCalledReturning("boye", ());
  }

  /** With nothing registered, a call that needs a value is the fatal "no matching expectations" error. */
  method NoMatchRun() returns (r: Result<int, Panic>)
    ensures r == Err(NoMatchingExpectation("boye"))
  {
    var mock := new Expectations<(), int>(_ => "()");
    FreshStoreVerifiesOk<(), int>([]);
    assert IdsNamed([], mock.store.expectations, "boye") == [];
    r := mock.WasCalledReturning("boye", ());
  }

  /** A fresh mock with `expect(name).called_any()` registered: one era holding id 0. */
  method MockCalledAny<I, O>(render: I -> string, name: string)
    returns (mock: Expectations<I, O>, t: M.TrackedMethod<I, O>)
    ensures fresh(mock.store) && mock.Valid()
    ensures t == M.TrackedMethod(0, M.Method(mock.store, name))
    ensures mock.store.eras == [[0]] && mock.store.currentUnverifiedEra == 0
    ensures mock.store.expectations == [E.New(name)]
    ensures mock.store.render == render
  {
    mock := new Expectations(render);
    FreshStoreVerifiesOk<I, O>([]);
    var m := mock.Expect(name);
    t := m.value.CalledAny();
    assert mock.store.eras[0] == [0];
  }

  /** `called_any()` passes after any number of calls, none included. */
  method CalledAnyRun(k: nat) returns (r: ExpectationResult)
    ensures r.Ok?
  {
    var mock, _ := MockCalledAny<(), ()>(_ => "()", "mega");
    var i := 0;
    while i < k
      invariant 0 <= i <= k
      invariant mock.Valid() && mock.store.eras == [[0]] && mock.store.currentUnverifiedEra == 0
      invariant mock.store.expectations == [E.New("mega")]
    {
      assert E.Called(E.New<(), ()>("mega"), ()).expectation.constraints == [];
      var _ := CallSole(mock, "mega", ());
      i := i + 1;
    }
    r := VerifySole(mock);
  }

  /**
   * `called_any().returning(|_| 5)`: the call yields 5, and the mock still
   * verifies afterwards.
   */
  method ReturningRun() returns (value: Result<int, Panic>, r: ExpectationResult)
    ensures value == Ok(5)
    ensures r.Ok?
  {
    var mock, t := MockCalledAny<(), int>(_ => "()", "boye");
    t := t.Returning(_ => 5);
    value := CallSoleReturning(mock, "boye", ());
    assert mock.store.expectations[0].constraints == [];
    r := VerifySole(mock);
  }

  /**
   * `called_any().modifying(|arg| *arg = 3)`: the caller's argument is 3
   * after the call, whatever it was before.
   */
  method ModifyingRun(before: int) returns (after: int)
    ensures after == 3
  {
    var mock, t := MockCalledAny<int, ()>(Decimal.IntToString, "dawg");
    t := t.Modifying(_ => 3);
    after := CallSole(mock, "dawg", before);
  }

  /**
   * A second registration for the same name in one era is refused; after
   * `then()` the same name can be registered again.
   */
  method DuplicateRun() returns (sameEra: Result<M.Method<(), ()>, Panic>, nextEra: bool)
    ensures sameEra == Err(DuplicateExpectation("eh"))
    ensures nextEra
  {
    var mock, _ := MockCalledTimes<(), ()>(_ => "()", "eh", 0);
    SoleExpectationVerdict(mock.store.expectations[0]);
    CountedVerdict<(), ()>("eh", 0);
    assert mock.store.eras[|mock.store.eras| - 1][0] == 0;
    sameEra := mock.Expect("eh");
    mock.Then();
    var again := mock.Expect("eh");
    nextEra := again.Ok?;
  }

  // ---------------------------------------------------------------------------
  // Two eras: era 0 holds expectation 0, era 1 holds expectation 1 or nothing

  predicate TwoEras<I, O>(eras: seq<Era>, arena: seq<E.Expectation<I, O>>)
  {
    && |eras| == 2 && eras[0] == [0] && |arena| >= 1
    && (eras[1] == [] || (eras[1] == [1] && |arena| == 2))
  }

  /** The one expectation a call to `name` reaches with the cursor at `cursor`, if any. */
  function SoleTarget<I, O>(eras: seq<Era>, arena: seq<E.Expectation<I, O>>, cursor: nat, name: string): Option<Id>
    requires TwoEras(eras, arena) && cursor <= 1
  {
    if eras[cursor] != [] && arena[eras[cursor][0]].name == name then Some(eras[cursor][0]) else None
  }

  /** The cursor leaves era 0 exactly when expectation 0 passes. */
  lemma TwoErasVerdict<I, O>(eras: seq<Era>, arena: seq<E.Expectation<I, O>>, cursor: nat)
    requires TwoEras(eras, arena) && cursor <= 1
    ensures ErasWellFormed(eras, |arena|)
    ensures VerifyFrom(eras, arena, cursor)
            == if cursor == 0 && E.Verify(arena[0]).Err? then Verdict(E.Verify(arena[0]), 0)
               else Verdict(if eras[1] == [] then Ok(()) else E.Verify(arena[1]), 1)
  {
  }

  /** A call reaches the cursor era's expectation iff it has the called name. */
  lemma TwoErasCall<I, O>(eras: seq<Era>, arena: seq<E.Expectation<I, O>>, cursor: nat, name: string, params: I)
    requires TwoEras(eras, arena) && cursor <= 1
    ensures ErasWellFormed(eras, |arena|)
    ensures var t := SoleTarget(eras, arena, cursor, name);
      && MatchedIds(eras, arena, cursor, name) == (if t.Some? then [t.value] else [])
      && DeliverCall(arena, MatchedIds(eras, arena, cursor, name), params)
         == if t.Some? then Delivery(arena[t.value := E.Called(arena[t.value], params).expectation],
                                     E.Called(arena[t.value], params).params)
            else Delivery(arena, params)
  {
    assert IdsBelow(eras[0], |arena|) && IdsBelow(eras[1], |arena|);
    var era := eras[cursor];
    if era != [] {
      assert IdsNamed(era, arena, name) == IdsNamed([], arena, name) + (if arena[era[0]].name == name then [era[0]] else []);
      DeliverToOne(arena, era[0], params);
    }
  }

  /** A call reported to a two-era mock. */
  method CallTwoEras<I, O>(mock: Expectations<I, O>, name: string, params: I) returns (params': I)
    requires mock.Valid() && TwoEras(mock.store.eras, mock.store.expectations)
    requires mock.store.currentUnverifiedEra <= 1
    modifies mock.store`currentUnverifiedEra, mock.store`expectations
    ensures mock.Valid() && mock.store.eras == old(mock.store.eras)
    ensures mock.store.currentUnverifiedEra
            == if old(mock.store.currentUnverifiedEra) == 0 && E.Verify(old(mock.store.expectations[0])).Err?
               then 0 else 1
    ensures var t := SoleTarget(mock.store.eras, old(mock.store.expectations), mock.store.currentUnverifiedEra, name);
      mock.store.expectations
      == if t.Some? then old(mock.store.expectations)[t.value := E.Called(old(mock.store.expectations[t.value]), params).expectation]
         else old(mock.store.expectations)
  {
    TwoErasVerdict(mock.store.eras, mock.store.expectations, mock.store.currentUnverifiedEra);
    TwoErasCall(mock.store.eras, mock.store.expectations, 0, name, params);
    TwoErasCall(mock.store.eras, mock.store.expectations, 1, name, params);
    params' := mock.WasCalled(name, params);
  }

  /** Verifying a two-era mock. */
  method VerifyTwoEras<I, O>(mock: Expectations<I, O>) returns (r: ExpectationResult)
    requires mock.Valid() && TwoEras(mock.store.eras, mock.store.expectations)
    requires mock.store.currentUnverifiedEra <= 1
    modifies mock.store`currentUnverifiedEra
    ensures r == if old(mock.store.currentUnverifiedEra) == 0 && E.Verify(old(mock.store.expectations[0])).Err?
                 then E.Verify(old(mock.store.expectations[0]))
                 else if mock.store.eras[1] == [] then Ok(())
                 else E.Verify(old(mock.store.expectations[1]))
  {
    TwoErasVerdict(mock.store.eras, mock.store.expectations, mock.store.currentUnverifiedEra);
    r := mock.Verify();
  }

  /**
   * `expect(name0).called_times(n0); then(); expect(name1).called_times(n1)`.
   * Registering the second expectation already advances the cursor past
   * era 0 when that era passes with no calls at all (`n0 == 0`).
   */
  method MockTwoEras<I, O>(render: I -> string, name0: string, n0: int, name1: string, n1: int)
    returns (mock: Expectations<I, O>)
    ensures fresh(mock.store) && mock.Valid()
    ensures mock.store.eras == [[0], [1]]
    ensures mock.store.expectations == [M.Counted(name0, n0), M.Counted(name1, n1)]
    ensures mock.store.currentUnverifiedEra == if n0 == 0 then 1 else 0
  {
    var t0;
    mock, t0 := MockCalledTimes<I, O>(render, name0, n0);
    mock.Then();
    CountedVerdict<I, O>(name0, n0);
    var t1 := ExpectInSecondEra(mock, name1, n1);
  }

  /**
   * `expect(name).called_times(n)` into the empty second era of a mock whose
   * first era holds expectation 0; the cursor moves on iff era 0 passes.
   */
  method ExpectInSecondEra<I, O>(mock: Expectations<I, O>, name: string, n: int) returns (t: M.TrackedMethod<I, O>)
    requires mock.Valid() && mock.store.eras == [[0], []] && mock.store.currentUnverifiedEra == 0
    requires |mock.store.expectations| == 1
    modifies mock.store`currentUnverifiedEra, mock.store`eras, mock.store`expectations
    ensures mock.Valid() && mock.store.eras == [[0], [1]]
    ensures t == M.TrackedMethod(1, M.Method(mock.store, name))
    ensures mock.store.expectations == old(mock.store.expectations) + [M.Counted(name, n)]
    ensures mock.store.currentUnverifiedEra == if E.Verify(old(mock.store.expectations[0])).Err? then 0 else 1
  {
    TwoErasVerdict(mock.store.eras, mock.store.expectations, 0);
    var m := mock.Expect(name);
    t := m.value.CalledTimes(n);
    assert mock.store.eras[1] == [1];
  }

  /**
   * Era ordering: `expect("eh").called_once(); then(); expect("mer").called_once()`.
   * Calling eh then mer verifies; calling mer first leaves that call
   * unmatched, so the second era still misses its call.
   */
  method OrderRun(ehFirst: bool) returns (r: ExpectationResult)
    ensures r.Ok? <==> ehFirst
    ensures !ehFirst ==> r == Err(ExpectationError(CalledTooFewTimes(1), "mer"))
  {
    var mock := MockTwoEras<(), ()>(_ => "()", "eh", 1, "mer", 1);
    CountedVerdict<(), ()>("eh", 1);
    CountedVerdict<(), ()>("eh", 0);
    CountedVerdict<(), ()>("mer", 1);
    CountedVerdict<(), ()>("mer", 0);
    CountedAfterCall<(), ()>("eh", 1, ());
    CountedAfterCall<(), ()>("mer", 1, ());
    if ehFirst {
      var _ := CallTwoEras(mock, "eh", ());
      var _ := CallTwoEras(mock, "mer", ());
    } else {
      var _ := CallTwoEras(mock, "mer", ());
      var _ := CallTwoEras(mock, "eh", ());
    }
    r := VerifyTwoEras(mock);
  }

  /**
   * `expect(name0).called_any(); then(); expect(name1).called_once()`: era 0
   * passes with no call, so the second registration moves the cursor to era 1.
   */
  method MockEager<I, O>(render: I -> string, name0: string, name1: string)
    returns (mock: Expectations<I, O>)
    ensures fresh(mock.store) && mock.Valid()
    ensures mock.store.eras == [[0], [1]]
    ensures mock.store.expectations == [E.New(name0), M.Counted(name1, 1)]
    ensures mock.store.currentUnverifiedEra == 1
  {
    var t0;
    mock, t0 := MockCalledAny<I, O>(render, name0);
    mock.Then();
    assert mock.store.eras == [[0], []];
    TwoErasVerdict(mock.store.eras, mock.store.expectations, 0);
    var m1 := mock.Expect(name1);
    var t1 := m1.value.CalledOnce();
    assert mock.store.eras[1] == [1];
  }

  /**
   * Eager completion: with `expect("c").called_any(); then();
   * expect("d").called_once()`, era 0 passes before any call, so registering
   * "d" already moves the cursor to era 1; the call to "c" reaches nothing
   * and "c" followed by "d" verifies.
   */
  method EagerRun() returns (r: ExpectationResult)
    ensures r.Ok?
  {
    var mock := MockEager<(), ()>(_ => "()", "c", "d");
    CountedVerdict<(), ()>("d", 0);
    CountedAfterCall<(), ()>("d", 1, ());
    var _ := CallTwoEras(mock, "c", ());
    var _ := CallTwoEras(mock, "d", ());
    r := VerifyTwoEras(mock);
  }

  /**
   * The same with `called_never()` for "c": an era of expectations that pass
   * with no call is left as eagerly, and the call to "c" is lost rather than
   * counted against it.
   */
  method EagerNeverRun() returns (r: ExpectationResult)
    ensures r.Ok?
  {
    var mock := MockTwoEras<(), ()>(_ => "()", "c", 0, "d", 1);
    CountedVerdict<(), ()>("c", 0);
    CountedVerdict<(), ()>("d", 0);
    CountedAfterCall<(), ()>("d", 1, ());
    var _ := CallTwoEras(mock, "c", ());
    var _ := CallTwoEras(mock, "d", ());
    r := VerifyTwoEras(mock);
  }

  // ---------------------------------------------------------------------------
  // The same name in two eras, each with a parameter rule

  /** `called_times(calls).with(v)` for `name`. */
  function CountedWith<I, O>(name: string, calls: int, v: Validator<I>, render: I -> string)
    : E.Expectation<I, O>
  {
    E.Constrain(M.Counted(name, calls), C.ParamsRule(Params.New(v, render)))
  }

  /** Before any call such an expectation reports its count alone. */
  lemma CountedWithVerdict<I, O>(name: string, calls: int, v: Validator<I>, render: I -> string)
    ensures E.Verify(CountedWith<I, O>(name, calls, v, render)) == E.Verify(M.Counted<I, O>(name, calls))
  {
  }

  /**
   * After a call with `x` it reports the count one lower first, and only
   * when that count is met the parameter rule's verdict on `x`.
   */
  lemma CountedWithAfterCall<I, O>(name: string, calls: int, v: Validator<I>, render: I -> string, x: I)
    ensures var r := E.Verify(E.Called(CountedWith<I, O>(name, calls, v, render), x).expectation);
      && (calls > 1 ==> r == Err(ExpectationError(CalledTooFewTimes(calls - 1), name)))
      && (calls < 1 ==> r == Err(ExpectationError(CalledTooManyTimes(1 - calls), name)))
      && (calls == 1 ==> r == if v.validate(x) then Ok(())
                              else Err(ExpectationError(MismatchedParams(v.description, render(x)), name)))
  {
    var p := Params.HandleCall(Params.New(v, render), x);
    var e := E.Called(CountedWith<I, O>(name, calls, v, render), x).expectation;
    assert e.constraints == [C.TimesRule(Times.Times(calls - 1)), C.ParamsRule(p)];
    if calls != 1 {
      E.VerifyReportsFirstFailure(e, 0);
    } else if !v.validate(x) {
      E.VerifyReportsFirstFailure(e, 1);
    }
  }

  /** A fresh mock with `expect(name).called_times(n).with(v)` registered, then `then()`. */
  method MockCountedWith<I, O>(render: I -> string, name: string, n: int, v: Validator<I>)
    returns (mock: Expectations<I, O>)
    ensures fresh(mock.store) && mock.Valid()
    ensures mock.store.eras == [[0], []] && mock.store.currentUnverifiedEra == 0
    ensures mock.store.expectations == [CountedWith(name, n, v, render)]
    ensures mock.store.render == render
  {
    var t;
    mock, t := MockCalledTimes<I, O>(render, name, n);
    t := t.With(v);
    mock.Then();
  }

  /**
   * Registers `expect(name).called_times(n).with(v)` in era 1 while era 0
   * still fails, so the cursor stays on era 0.
   */
  method AddSecondEra<I, O>(mock: Expectations<I, O>, name: string, n: int, v: Validator<I>)
    requires mock.Valid() && mock.store.eras == [[0], []] && mock.store.currentUnverifiedEra == 0
    requires |mock.store.expectations| == 1 && E.Verify(mock.store.expectations[0]).Err?
    modifies mock.store`currentUnverifiedEra, mock.store`eras, mock.store`expectations
    ensures mock.Valid() && mock.store.eras == [[0], [1]] && mock.store.currentUnverifiedEra == 0
    ensures mock.store.expectations == old(mock.store.expectations) + [CountedWith(name, n, v, mock.store.render)]
  {
    var t := ExpectInSecondEra(mock, name, n);
    t := t.With(v);
  }

  /**
   * `expect("fren").called_once().with(gt(5)); then();
   * expect("fren").called_times(second).with(lt(3))`.
   */
  method MockFren(second: int) returns (mock: Expectations<int, ()>)
    ensures fresh(mock.store) && mock.Valid()
    ensures mock.store.eras == [[0], [1]] && mock.store.currentUnverifiedEra == 0
    ensures mock.store.expectations
            == [CountedWith("fren", 1, Compare.Gt(5), Decimal.IntToString),
                CountedWith("fren", second, Compare.Lt(3), Decimal.IntToString)]
  {
    mock := MockCountedWith<int, ()>(Decimal.IntToString, "fren", 1, Compare.Gt(5));
    CountedWithVerdict<int, ()>("fren", 1, Compare.Gt(5), Decimal.IntToString);
    CountedVerdict<int, ()>("fren", 1);
    AddSecondEra(mock, "fren", second, Compare.Lt(3));
  }

  /**
   * Two calls to the name both eras hold, starting with the cursor on a
   * failing era 0: the first call completes era 0, so the second reaches
   * era 1 alone, and verification reports era 1's expectation.
   */
  method CallBothEras<I, O>(mock: Expectations<I, O>, name: string, x: I, y: I) returns (r: ExpectationResult)
    requires mock.Valid() && mock.store.eras == [[0], [1]] && mock.store.currentUnverifiedEra == 0
    requires |mock.store.expectations| == 2
    requires mock.store.expectations[0].name == name && mock.store.expectations[1].name == name
    requires E.Verify(mock.store.expectations[0]).Err?
    requires E.Verify(E.Called(mock.store.expectations[0], x).expectation).Ok?
    modifies mock.store`currentUnverifiedEra, mock.store`expectations
    ensures r == E.Verify(E.Called(old(mock.store.expectations[1]), y).expectation)
  {
    var _ := CallTwoEras(mock, name, x);
    var _ := CallTwoEras(mock, name, y);
    r := VerifyTwoEras(mock);
  }

  /** Era 0 of the "fren" run fails until its call with 10, which completes it. */
  lemma FrenFirstEra()
    ensures E.Verify(CountedWith<int, ()>("fren", 1, Compare.Gt(5), Decimal.IntToString)).Err?
    ensures E.Verify(E.Called(CountedWith<int, ()>("fren", 1, Compare.Gt(5), Decimal.IntToString), 10)
                       .expectation).Ok?
  {
  }

  /** Era 1 of the "fren" run after its call with `y`: the count first, then `lt(3)`. */
  lemma FrenSecondEra(second: int, y: int)
    ensures var r := E.Verify(E.Called(CountedWith<int, ()>("fren", second, Compare.Lt(3), Decimal.IntToString), y)
                                .expectation);
      && (r.Ok? <==> second == 1 && y < 3)
      && (second > 1 ==> r == Err(ExpectationError(CalledTooFewTimes(second - 1), "fren")))
      && (second < 1 ==> r == Err(ExpectationError(CalledTooManyTimes(1 - second), "fren")))
      && (second == 1 && y >= 3
          ==> r == Err(ExpectationError(MismatchedParams("< 3", Decimal.IntToString(y)), "fren")))
  {
    CountedWithAfterCall<int, ()>("fren", second, Compare.Lt(3), Decimal.IntToString, y);
    assert Decimal.IntToString(3) == "3";
    assert Compare.Lt(3).description == "< 3";
  }

  /**
   * The same name registered in two eras: with `called_once().with(gt(5))`
   * then `called_times(second).with(lt(3))`, a call with 10 completes era 0
   * and a call with `y` reaches era 1 alone. The run verifies iff
   * `second == 1` and `y < 3`; the count is checked before the parameters.
   */
  method ThenRun(second: int, y: int) returns (r: ExpectationResult)
    ensures r.Ok? <==> second == 1 && y < 3
    ensures second > 1 ==> r == Err(ExpectationError(CalledTooFewTimes(second - 1), "fren"))
    ensures second < 1 ==> r == Err(ExpectationError(CalledTooManyTimes(1 - second), "fren"))
    ensures second == 1 && y >= 3
            ==> r == Err(ExpectationError(MismatchedParams("< 3", Decimal.IntToString(y)), "fren"))
  {
    var mock := MockFren(second);
    FrenFirstEra();
    FrenSecondEra(second, y);
    r := CallBothEras(mock, "fren", 10, y);
  }

  /**
   * `expect("c").called_once(); then()` followed by `k` calls to "c": any
   * number of calls from one on verifies, because once era 0 passes the
   * cursor moves to the trailing empty era and later calls reach nothing.
   */
  method TrailingEraRun(k: nat) returns (r: ExpectationResult)
    ensures r.Ok? <==> k >= 1
    ensures k == 0 ==> r == Err(ExpectationError(CalledTooFewTimes(1), "c"))
  {
    var mock, _ := MockCalledTimes<(), ()>(_ => "()", "c", 1);
    mock.Then();
    var i := 0;
    while i < k
      invariant 0 <= i <= k
      invariant mock.Valid() && mock.store.eras == [[0], []] && mock.store.currentUnverifiedEra <= 1
      invariant mock.store.expectations == [M.Counted("c", if i == 0 then 1 else 0)]
      invariant i == 0 ==> mock.store.currentUnverifiedEra == 0
    {
      CallTrailing(mock);
      i := i + 1;
    }
    CountedVerdict<(), ()>("c", 1);
    CountedVerdict<(), ()>("c", 0);
    r := VerifyTwoEras(mock);
  }

  /**
   * One call to "c" on `expect("c").called_once(); then()`: the first call is
   * counted; any later one finds era 0 passing and reaches the empty era.
   */
  method CallTrailing(mock: Expectations<(), ()>)
    requires mock.Valid() && mock.store.eras == [[0], []] && mock.store.currentUnverifiedEra <= 1
    requires || (mock.store.expectations == [M.Counted("c", 1)] && mock.store.currentUnverifiedEra == 0)
             || mock.store.expectations == [M.Counted("c", 0)]
    modifies mock.store`currentUnverifiedEra, mock.store`expectations
    ensures mock.Valid() && mock.store.eras == [[0], []] && mock.store.currentUnverifiedEra <= 1
    ensures mock.store.expectations == [M.Counted("c", 0)]
  {
    CountedVerdict<(), ()>("c", 1);
    CountedVerdict<(), ()>("c", 0);
    CountedAfterCall<(), ()>("c", 1, ());
    var _ := CallTwoEras(mock, "c", ());
  }
}

=== FILE: panics.dfy ===
/**
 * The fatal usage errors of the engine. The Rust code panics in each of
 * these situations; the model returns one of these values instead, so that
 * contracts can say exactly when a panic happens.
 */
module Panics {

  datatype Panic =
      /** A second expectation for the same method in the era being built. */
    | DuplicateExpectation(methodName: string)
      /** A value was needed from an expectation without a return closure. */
    | NoReturnClosure(methodName: string)
      /** A value was needed for a call that matched no expectation. */
    | NoMatchingExpectation(methodName: string)

  const DuplicatePrefix := "Only one expectation can be set for method '"
  const DuplicateSuffix := "' per era - use .then() to create a new era before adding another expectation."
  const NoReturnPrefix := "No return closure specified for `"
  const NoReturnSuffix := "`, which should return."
  const NoMatchPrefix := "Can't return a value for method `"
  const NoMatchSuffix := "` with no matching expectations."

  /** The fixed text before the method name in each panic message. */
  function Prefix(p: Panic): string
  {
    match p
    case DuplicateExpectation(_) => DuplicatePrefix
    case NoReturnClosure(_) => NoReturnPrefix
    case NoMatchingExpectation(_) => NoMatchPrefix
  }

  /** The fixed text after the method name in each panic message. */
  function Suffix(p: Panic): string
  {
    match p
    case DuplicateExpectation(_) => DuplicateSuffix
    case NoReturnClosure(_) => NoReturnSuffix
    case NoMatchingExpectation(_) => NoMatchSuffix
  }

  /** The panic message: the case's fixed text around the method name. */
  function Message(p: Panic): (s: string)
    ensures p.DuplicateExpectation? ==> s == DuplicatePrefix + p.methodName + DuplicateSuffix
    ensures p.NoReturnClosure? ==> s == NoReturnPrefix + p.methodName + NoReturnSuffix
    ensures p.NoMatchingExpectation? ==> s == NoMatchPrefix + p.methodName + NoMatchSuffix
  {
    Prefix(p) + p.methodName + Suffix(p)
  }

  /**
   * The message identifies the panic: the three cases start differently, and
   * with the fixed texts known, the method name is what lies between them.
   */
  lemma MessageIdentifiesPanic(p: Panic, q: Panic)
    requires Message(p) == Message(q)
    ensures p == q
  {
    var s := Message(p);
    assert s[0] == Prefix(p)[0] && s[0] == Prefix(q)[0];
    assert Prefix(p) == Prefix(q) && Suffix(p) == Suffix(q);
    var pre, suf := Prefix(p), Suffix(p);
    assert |p.methodName| == |s| - |pre| - |suf| == |q.methodName|;
    assert p.methodName == s[|pre|..|pre| + |p.methodName|] == q.methodName;
  }
}

=== FILE: params.dfy ===
/**
 * The parameter rule: every call's argument must pass a validator. The first
 * failure sticks, and the rendering of the first offending argument is kept
 * for the error message.
 */
module Params {
  import opened Wrappers
  import opened ConstraintResult
  import opened Validator

  /**
   * `render` is the `Debug` rendering of the argument type, used to record
   * the offending argument.
   */
  datatype Params<!I> = Params(
    isValid: bool,
    receivedParamMsg: string,
    validator: Validator<I>,
    render: I -> string)

  function New<I>(validator: Validator<I>, render: I -> string): (p: Params<I>)
    ensures p.isValid && p.receivedParamMsg == ""
    ensures p.validator == validator && p.render == render
  {
    Params(true, "", validator, render)
  }

  /**
   * While still valid, consult the validator and on a rejection record the
   * argument; once invalid, neither the validator nor the message is touched.
   */
  function HandleCall<I>(p: Params<I>, params: I): (p': Params<I>)
    ensures p'.validator == p.validator && p'.render == p.render
    ensures p'.isValid == (p.isValid && p.validator.validate(params))
    ensures !p.isValid ==> p' == p
    ensures p.isValid && !p'.isValid ==> p'.receivedParamMsg == p.render(params)
    ensures p'.isValid ==> p'.receivedParamMsg == p.receivedParamMsg
  {
    if p.isValid then
      var ok := p.validator.validate(params);
      if ok then p else p.(isValid := false, receivedParamMsg := p.render(params))
    else
      p
  }

  /** Passes iff still valid; otherwise reports the expectation and the first offender. */
  function Verify<I>(p: Params<I>): (r: ConstraintResult)
    ensures r.Ok? <==> p.isValid
    ensures !p.isValid ==> r == Err(MismatchedParams(p.validator.description, p.receivedParamMsg))
  {
    if p.isValid then Ok(())
    else Err(MismatchedParams(p.validator.description, p.receivedParamMsg))
  }

  /** The rule after a sequence of matching calls, in order. */
  function AfterCalls<I>(p: Params<I>, calls: seq<I>): (p': Params<I>)
    ensures p'.validator == p.validator && p'.render == p.render
    decreases |calls|
  {
    if calls == [] then p else AfterCalls(HandleCall(p, calls[0]), calls[1..])
  }

  /** Once invalid, no later call changes anything. */
  lemma {:induction false} StaysInvalid<I>(p: Params<I>, calls: seq<I>)
    requires !p.isValid
    ensures AfterCalls(p, calls) == p
    decreases |calls|
  {
    if calls != [] {
      StaysInvalid(HandleCall(p, calls[0]), calls[1..]);
    }
  }

  /** A rule that starts valid stays valid iff every call passes the validator. */
  lemma {:induction false} ValidIffAllPass<I>(p: Params<I>, calls: seq<I>)
    requires p.isValid
    ensures AfterCalls(p, calls).isValid <==> forall k :: 0 <= k < |calls| ==> p.validator.validate(calls[k])
    ensures AfterCalls(p, calls).isValid ==> AfterCalls(p, calls).receivedParamMsg == p.receivedParamMsg
    decreases |calls|
  {
    if calls != [] {
      var q := HandleCall(p, calls[0]);
      if q.isValid {
        ValidIffAllPass(q, calls[1..]);
        assert forall k :: 1 <= k < |calls| ==> calls[k] == calls[1..][k - 1];
      } else {
        StaysInvalid(q, calls[1..]);
      }
    }
  }

  /**
   * If call `k` is the first the validator rejects, verification reports the
   * validator's description and the rendering of exactly that argument.
   */
  lemma {:induction false} FirstOffenderReported<I>(p: Params<I>, calls: seq<I>, k: nat)
    requires p.isValid
    requires k < |calls| && !p.validator.validate(calls[k])
    requires forall j :: 0 <= j < k ==> p.validator.validate(calls[j])
    ensures Verify(AfterCalls(p, calls)) == Err(MismatchedParams(p.validator.description, p.render(calls[k])))
    decreases k
  {
    var q := HandleCall(p, calls[0]);
    if k == 0 {
      StaysInvalid(q, calls[1..]);
    } else {
      assert forall j :: 0 <= j < k - 1 ==> calls[1..][j] == calls[j + 1];
      FirstOffenderReported(q, calls[1..], k - 1);
    }
  }

  /** A fresh rule, and one that has only seen accepted arguments, verifies Ok. */
  lemma FreshRuleVerifiesOk<I>(validator: Validator<I>, render: I -> string, calls: seq<I>)
    requires forall k :: 0 <= k < |calls| ==> validator.validate(calls[k])
    ensures Verify(AfterCalls(New(validator, render), calls)).Ok?
  {
  }
}

=== FILE: store.dfy ===
/**
 * The expectation store: an arena of expectations, the ordered eras (lists
 * of expectation ids) and the cursor `currentUnverifiedEra`. This is where
 * calls are matched and the eras are verified in order.
 */
module Store {
  import opened Wrappers
  import opened ExpectationResult
  import opened Panics
  import C = Constraint
  import E = Expectation

  /** An expectation's handle: its index in the arena. */
  type Id = nat

  /** The ids registered between two `then()` boundaries, in registration order. */
  type Era = seq<Id>

  predicate IdsBelow(ids: seq<Id>, n: nat)
  {
    forall k :: 0 <= k < |ids| ==> ids[k] < n
  }

  /** There is always at least one era, and every id names an expectation. */
  predicate ErasWellFormed(eras: seq<Era>, n: nat)
  {
    |eras| >= 1 && forall i :: 0 <= i < |eras| ==> IdsBelow(eras[i], n)
  }

  // ---------------------------------------------------------------------------
  // Verification of the eras

  /** The position of the first expectation of `era` that fails, or `|era|`. */
  function FirstFailingId<I, O>(era: Era, arena: seq<E.Expectation<I, O>>): (k: nat)
    requires IdsBelow(era, |arena|)
    ensures k <= |era|
    ensures forall j :: 0 <= j < k ==> E.Verify(arena[era[j]]).Ok?
    ensures k < |era| ==> E.Verify(arena[era[k]]).Err?
    decreases |era|
  {
    if era == [] then 0
    else if E.Verify(arena[era[0]]).Err? then 0
    else 1 + FirstFailingId(era[1..], arena)
  }

  /** An era passes iff all its expectations pass; else it reports the first failure in era order. */
  function EraVerdict<I, O>(era: Era, arena: seq<E.Expectation<I, O>>): (r: ExpectationResult)
    requires IdsBelow(era, |arena|)
    ensures r.Ok? <==> forall k :: 0 <= k < |era| ==> E.Verify(arena[era[k]]).Ok?
    ensures r.Err? ==>
      exists k :: 0 <= k < |era| && r == E.Verify(arena[era[k]])
                  && forall j :: 0 <= j < k ==> E.Verify(arena[era[j]]).Ok?
  {
    var k := FirstFailingId(era, arena);
    if k < |era| then E.Verify(arena[era[k]]) else Ok(())
  }

  /** The index of the first era at or after `from` that fails, or `|eras|`. */
  function FirstFailingEra<I, O>(eras: seq<Era>, arena: seq<E.Expectation<I, O>>, from: nat): (k: nat)
    requires ErasWellFormed(eras, |arena|) && from <= |eras|
    ensures from <= k <= |eras|
    ensures forall i :: from <= i < k ==> EraVerdict(eras[i], arena).Ok?
    ensures k < |eras| ==> EraVerdict(eras[k], arena).Err?
    decreases |eras| - from
  {
    if from == |eras| then from
    else if EraVerdict(eras[from], arena).Err? then from
    else FirstFailingEra(eras, arena, from + 1)
  }

  /** The result of verifying the store, and where the cursor is left. */
  datatype Verdict = Verdict(result: ExpectationResult, cursor: nat)

  /**
   * What `verify` does from cursor `cursor`: scan the eras in order from the
   * cursor and stop at the first failing one, leaving the cursor on it. When
   * every era passes, the result is Ok and the cursor is the last era's index;
   * a cursor already at or past the end is left where it is.
   */
  function VerifyFrom<I, O>(eras: seq<Era>, arena: seq<E.Expectation<I, O>>, cursor: nat): (v: Verdict)
    requires ErasWellFormed(eras, |arena|)
    ensures v.cursor >= cursor
    ensures cursor >= |eras| ==> v == Verdict(Ok(()), cursor)
    ensures v.result.Ok? <==> forall i :: cursor <= i < |eras| ==> EraVerdict(eras[i], arena).Ok?
    ensures v.result.Ok? && cursor < |eras| ==> v.cursor == |eras| - 1
    ensures v.result.Err? ==>
      && v.cursor < |eras|
      && v.result == EraVerdict(eras[v.cursor], arena)
      && forall i :: cursor <= i < v.cursor ==> EraVerdict(eras[i], arena).Ok?
  {
    if cursor >= |eras| then Verdict(Ok(()), cursor)
    else
      var k := FirstFailingEra(eras, arena, cursor);
      if k < |eras| then Verdict(EraVerdict(eras[k], arena), k)
      else Verdict(Ok(()), |eras| - 1)
  }

  /** Verifying again with nothing in between gives the same result and the same cursor. */
  lemma VerifyIdempotent<I, O>(eras: seq<Era>, arena: seq<E.Expectation<I, O>>, cursor: nat)
    requires ErasWellFormed(eras, |arena|)
    ensures VerifyFrom(eras, arena, VerifyFrom(eras, arena, cursor).cursor) == VerifyFrom(eras, arena, cursor)
  {
  }

  /** A fresh store (one empty era) verifies Ok and keeps its cursor at 0. */
  lemma FreshStoreVerifiesOk<I, O>(arena: seq<E.Expectation<I, O>>)
    ensures ErasWellFormed([[]], |arena|)
    ensures VerifyFrom([[]], arena, 0) == Verdict(Ok(()), 0)
  {
  }

  /**
   * Era ordering: while an era at or after the cursor fails, verification
   * never moves the cursor past it, so no later era is matched against.
   */
  lemma NoAdvancePastFailingEra<I, O>(eras: seq<Era>, arena: seq<E.Expectation<I, O>>, cursor: nat, j: nat)
    requires ErasWellFormed(eras, |arena|)
    requires cursor <= j < |eras| && EraVerdict(eras[j], arena).Err?
    ensures VerifyFrom(eras, arena, cursor).result.Err?
    ensures VerifyFrom(eras, arena, cursor).cursor <= j
  {
  }

  /**
   * Eager advancement: once every era before `j` passes, verification moves
   * the cursor at least to `j`, with no explicit call to `verify` needed.
   */
  lemma EagerAdvance<I, O>(eras: seq<Era>, arena: seq<E.Expectation<I, O>>, cursor: nat, j: nat)
    requires ErasWellFormed(eras, |arena|)
    requires cursor <= j < |eras|
    requires forall i :: cursor <= i < j ==> EraVerdict(eras[i], arena).Ok?
    ensures VerifyFrom(eras, arena, cursor).cursor >= j
  {
  }

  // ---------------------------------------------------------------------------
  // Matching

  /** The ids of `ids` whose expectation has the given name, in their original order. */
  function IdsNamed<I, O>(ids: seq<Id>, arena: seq<E.Expectation<I, O>>, name: string): (r: seq<Id>)
    requires IdsBelow(ids, |arena|)
    ensures |r| <= |ids|
    ensures forall k :: 0 <= k < |r| ==> r[k] in ids && r[k] < |arena| && arena[r[k]].name == name
    ensures forall k :: 0 <= k < |ids| && arena[ids[k]].name == name ==> ids[k] in r
    decreases |ids|
  {
    if ids == [] then []
    else
      var init, last := ids[..|ids| - 1], ids[|ids| - 1];
      assert forall k :: 0 <= k < |ids| - 1 ==> ids[k] == init[k];
      IdsNamed(init, arena, name) + (if arena[last].name == name then [last] else [])
  }

  /** The ids a call to `name` is delivered to when the cursor is at `cursor`. */
  function MatchedIds<I, O>(eras: seq<Era>, arena: seq<E.Expectation<I, O>>, cursor: nat, name: string)
    : (r: seq<Id>)
    requires ErasWellFormed(eras, |arena|)
    ensures IdsBelow(r, |arena|)
    ensures cursor >= |eras| ==> r == []
    ensures cursor < |eras| ==> forall k :: 0 <= k < |r| ==> r[k] in eras[cursor] && arena[r[k]].name == name
    ensures cursor < |eras| ==>
      forall k :: 0 <= k < |eras[cursor]| && arena[eras[cursor][k]].name == name ==> eras[cursor][k] in r
  {
    if cursor < |eras| then IdsNamed(eras[cursor], arena, name) else []
  }

  /** The era being built (the last one) already holds an expectation for `name`. */
  predicate LastEraHasName<I, O>(eras: seq<Era>, arena: seq<E.Expectation<I, O>>, name: string)
    requires ErasWellFormed(eras, |arena|)
  {
    var last := eras[|eras| - 1];
    exists k :: 0 <= k < |last| && arena[last[k]].name == name
  }

  /**
   * When every era passes, the cursor rests on the last era rather than past
   * the end, so a call matches exactly the last era's ids with the called
   * name: nothing when no expectation there carries that name, in particular
   * when that era is empty.
   */
  lemma CompletedStoreStillMatchesLastEra<I, O>(eras: seq<Era>, arena: seq<E.Expectation<I, O>>,
                                                 cursor: nat, name: string)
    requires ErasWellFormed(eras, |arena|)
    requires cursor < |eras| && VerifyFrom(eras, arena, cursor).result.Ok?
    ensures MatchedIds(eras, arena, VerifyFrom(eras, arena, cursor).cursor, name)
            == IdsNamed(eras[|eras| - 1], arena, name)
    ensures eras[|eras| - 1] == [] ==> MatchedIds(eras, arena, VerifyFrom(eras, arena, cursor).cursor, name) == []
  {
  }

  // ---------------------------------------------------------------------------
  // Delivering a call

  /** The arena after a call, and the argument as the modification closures left it. */
  datatype Delivery<!I, O> = Delivery(arena: seq<E.Expectation<I, O>>, params: I)

  /**
   * Hands one call to each id in turn. The argument is shared: each
   * expectation sees it as the previous expectations' modifiers left it.
   */
  function DeliverCall<I, O>(arena: seq<E.Expectation<I, O>>, ids: seq<Id>, params: I): (d: Delivery<I, O>)
    requires IdsBelow(ids, |arena|)
    ensures |d.arena| == |arena|
    ensures forall x :: 0 <= x < |arena| ==> d.arena[x].name == arena[x].name
    ensures forall x :: 0 <= x < |arena| && x !in ids ==> d.arena[x] == arena[x]
    decreases |ids|
  {
    if ids == [] then Delivery(arena, params)
    else
      var h := E.Called(arena[ids[0]], params);
      DeliverCall(arena[ids[0] := h.expectation], ids[1..], h.params)
  }

  /** A call matched by a single id is handled by that expectation exactly once. */
  lemma DeliverToOne<I, O>(arena: seq<E.Expectation<I, O>>, id: Id, params: I)
    requires id < |arena|
    ensures DeliverCall(arena, [id], params)
            == Delivery(arena[id := E.Called(arena[id], params).expectation], E.Called(arena[id], params).params)
  {
  }

  /** No id occurs twice in the list. */
  predicate Distinct(ids: seq<Id>)
  {
    forall a, b :: 0 <= a < b < |ids| ==> ids[a] != ids[b]
  }

  /** No era lists an id twice. */
  predicate IdsUnique(eras: seq<Era>)
  {
    forall i :: 0 <= i < |eras| ==> Distinct(eras[i])
  }

  /** Keeping the ids with a name keeps them distinct. */
  lemma {:induction false} IdsNamedDistinct<I, O>(ids: seq<Id>, arena: seq<E.Expectation<I, O>>, name: string)
    requires IdsBelow(ids, |arena|) && Distinct(ids)
    ensures Distinct(IdsNamed(ids, arena, name))
    decreases |ids|
  {
    if ids != [] {
      var init := ids[..|ids| - 1];
      assert IdsBelow(init, |arena|) && Distinct(init);
      IdsNamedDistinct(init, arena, name);
      assert ids[|ids| - 1] !in init;
    }
  }

  /** The first id of a list of distinct ids is not among the rest, and the rest stay distinct. */
  lemma DistinctTail(ids: seq<Id>)
    requires Distinct(ids) && ids != []
    ensures ids[0] !in ids[1..] && Distinct(ids[1..])
  {
    var rest := ids[1..];
    forall k | 0 <= k < |rest| ensures rest[k] != ids[0] { assert rest[k] == ids[k + 1]; }
    forall a, b | 0 <= a < b < |rest| ensures rest[a] != rest[b] { assert rest[a] == ids[a + 1]; }
  }

  /**
   * Every matched id handles the call once, in list order: the `j`-th id
   * sees the argument as the modifiers of the `j` ids before it left it.
   */
  lemma {:induction false} DeliverCallReachesEach<I, O>(
    arena: seq<E.Expectation<I, O>>, ids: seq<Id>, params: I, j: nat)
    requires IdsBelow(ids, |arena|) && Distinct(ids) && j < |ids|
    ensures IdsBelow(ids[..j], |arena|)
    ensures DeliverCall(arena, ids, params).arena[ids[j]]
            == E.Called(arena[ids[j]], DeliverCall(arena, ids[..j], params).params).expectation
    decreases |ids|
  {
    var h := E.Called(arena[ids[0]], params);
    var arena' := arena[ids[0] := h.expectation];
    var rest := ids[1..];
    assert IdsBelow(rest, |arena'|);
    DistinctTail(ids);
    if j > 0 {
      DeliverCallReachesEach(arena', rest, h.params, j - 1);
      assert rest[j - 1] == ids[j] != ids[0];
      assert ids[..j][0] == ids[0] && ids[..j][1..] == rest[..j - 1];
    }
  }

  /** Checks the expectations of one era in order and stops at the first failure. */
  method VerifyEra<I, O>(era: Era, arena: seq<E.Expectation<I, O>>) returns (r: ExpectationResult)
    requires IdsBelow(era, |arena|)
    ensures r == EraVerdict(era, arena)
  {
    var k := 0;
    while k < |era|
      invariant 0 <= k <= |era|
      invariant forall j :: 0 <= j < k ==> E.Verify(arena[era[j]]).Ok?
    {
      r := E.Verify(arena[era[k]]);
      if r.Err? {
        assert FirstFailingId(era, arena) == k;
        return;
      }
      k := k + 1;
    }
    r := Ok(());
  }

  // ---------------------------------------------------------------------------
  // The store

  class ExpectationStore<I, O> {
    var currentUnverifiedEra: nat
    var eras: seq<Era>
    var expectations: seq<E.Expectation<I, O>>
    /** The `Debug` rendering of the argument type, used by parameter rules. */
    const render: I -> string

    ghost predicate Valid()
      reads this
    {
      ErasWellFormed(eras, |expectations|) && IdsUnique(eras)
    }

    /** One empty era, no expectations, cursor 0. */
    constructor (render: I -> string)
      ensures Valid()
      ensures currentUnverifiedEra == 0 && eras == [[]] && expectations == []
      ensures this.render == render
    {
      currentUnverifiedEra := 0;
      eras := [[]];
      expectations := [];
      this.render := render;
    }

    /** Registers an expectation under the last era and returns its fresh id. */
    method Add(expectation: E.Expectation<I, O>) returns (id: Id)
      requires Valid()
      modifies this`eras, this`expectations
      ensures Valid()
      ensures id == old(|expectations|) && expectations == old(expectations) + [expectation]
      ensures |eras| == old(|eras|) && eras[..|eras| - 1] == old(eras[..|eras| - 1])
      ensures eras[|eras| - 1] == old(eras[|eras| - 1]) + [id]
      ensures currentUnverifiedEra == old(currentUnverifiedEra)
    {
      id := |expectations|;
      expectations := expectations + [expectation];
      eras := eras[..|eras| - 1] + [eras[|eras| - 1] + [id]];
      assert forall i :: 0 <= i < |eras| - 1 ==> eras[i] == old(eras[i]);
    }

    /** Appends one empty era; the cursor does not move. */
    method NewEra()
      requires Valid()
      modifies this`eras
      ensures Valid()
      ensures eras == old(eras) + [[]]
      ensures currentUnverifiedEra == old(currentUnverifiedEra)
    {
      eras := eras + [[]];
    }

    /**
     * Walks the eras from the cursor, moving the cursor along, and stops at
     * the first era with a failing expectation.
     */
    method Verify() returns (status: ExpectationResult)
      requires Valid()
      modifies this`currentUnverifiedEra
      ensures Valid()
      ensures Verdict(status, currentUnverifiedEra) == VerifyFrom(eras, expectations, old(currentUnverifiedEra))
    {
      status := Ok(());
      var all, arena := eras, expectations;
      var originalUnverifiedEra := currentUnverifiedEra;
      var eraIndex := originalUnverifiedEra;
      while eraIndex < |all|
        invariant originalUnverifiedEra <= eraIndex
        invariant eraIndex == originalUnverifiedEra || eraIndex <= |all|
        invariant status == Ok(())
        invariant currentUnverifiedEra
                  == if eraIndex == originalUnverifiedEra then originalUnverifiedEra else eraIndex - 1
        invariant originalUnverifiedEra < |all| ==>
                    FirstFailingEra(all, arena, originalUnverifiedEra) == FirstFailingEra(all, arena, eraIndex)
      {
        currentUnverifiedEra := eraIndex;
        var r := VerifyEra(all[eraIndex], arena);
        if r.Err? {
          status := r;
          break;
        }
        eraIndex := eraIndex + 1;
      }
    }

    /** Runs `Verify` for its effect on the cursor only. */
    method AdvanceEra()
      requires Valid()
      modifies this`currentUnverifiedEra
      ensures Valid()
      ensures currentUnverifiedEra == VerifyFrom(eras, expectations, old(currentUnverifiedEra)).cursor
    {
      var _ := Verify();
    }

    /**
     * After advancing the cursor, whether the LAST era (the one being built,
     * not necessarily the cursor's) already has an expectation for `name`.
     */
    method HasExpectationForMethodInCurrentEra(name: string) returns (found: bool)
      requires Valid()
      modifies this`currentUnverifiedEra
      ensures Valid()
      ensures currentUnverifiedEra == VerifyFrom(eras, expectations, old(currentUnverifiedEra)).cursor
      ensures found <==> LastEraHasName(eras, expectations, name)
    {
      AdvanceEra();
      var last := eras[|eras| - 1];
      var k := 0;
      while k < |last|
        invariant 0 <= k <= |last|
        invariant forall j :: 0 <= j < k ==> expectations[last[j]].name != name
      {
        if expectations[last[k]].name == name {
          return true;
        }
        k := k + 1;
      }
      return false;
    }

    /**
     * Advances the cursor, then keeps the ids of the cursor's era whose
     * expectation is named `name`; none when the cursor is past the end.
     */
    method MatcherFor(name: string) returns (m: ExpectationMatcher<I, O>)
      requires Valid()
      modifies this`currentUnverifiedEra
      ensures Valid()
      ensures currentUnverifiedEra == VerifyFrom(eras, expectations, old(currentUnverifiedEra)).cursor
      ensures m == ExpectationMatcher(MatchedIds(eras, expectations, currentUnverifiedEra, name), name, this)
      ensures Distinct(m.ids)
    {
      AdvanceEra();
      if currentUnverifiedEra < |eras| {
        var era, arena := eras[currentUnverifiedEra], expectations;
        assert IdsBelow(era, |arena|) && Distinct(era);
        var ids: seq<Id> := [];
        var k := 0;
        while k < |era|
          invariant 0 <= k <= |era|
          invariant IdsBelow(era[..k], |arena|)
          invariant ids == IdsNamed(era[..k], arena, name)
        {
          assert era[..k + 1][..k] == era[..k];
          if arena[era[k]].name == name {
            ids := ids + [era[k]];
          }
          k := k + 1;
        }
        assert era[..|era|] == era;
        IdsNamedDistinct(era, arena, name);
        m := ExpectationMatcher(ids, name, this);
      } else {
        m := ExpectationMatcher([], name, this);
      }
    }

    /** Appends a constraint to expectation `id`. */
    method Constrain(id: Id, constraint: C.Constraint<I>)
      requires Valid() && id < |expectations|
      modifies this`expectations
      ensures Valid()
      ensures expectations == old(expectations)[id := E.Constrain(old(expectations[id]), constraint)]
    {
      expectations := expectations[id := E.Constrain(expectations[id], constraint)];
    }

    /** Sets (or replaces) the modification closure of expectation `id`. */
    method SetModification(id: Id, f: I -> I)
      requires Valid() && id < |expectations|
      modifies this`expectations
      ensures Valid()
      ensures expectations == old(expectations)[id := E.SetModification(old(expectations[id]), f)]
    {
      expectations := expectations[id := E.SetModification(expectations[id], f)];
    }

    /** Sets (or replaces) the return closure of expectation `id`. */
    method SetReturn(id: Id, f: I -> O)
      requires Valid() && id < |expectations|
      modifies this`expectations
      ensures Valid()
      ensures expectations == old(expectations)[id := E.SetReturn(old(expectations[id]), f)]
    {
      expectations := expectations[id := E.SetReturn(expectations[id], f)];
    }
  }

  /** The transient result of matching one call: the matched ids, the method name, the store. */
  datatype ExpectationMatcher<I, O> = ExpectationMatcher(ids: seq<Id>, name: string, store: ExpectationStore<I, O>)
  {
    /**
     * Hands the call to every matched id, in order. Returns the argument as
     * the modification closures left it (what a caller sees through a
     * pointer argument).
     */
    method WasCalled(params: I) returns (params': I)
      requires store.Valid() && IdsBelow(ids, |store.expectations|)
      modifies store`expectations
      ensures store.Valid()
      ensures Delivery(store.expectations, params') == DeliverCall(old(store.expectations), ids, params)
    {
      params' := params;
      var k := 0;
      while k < |ids|
        invariant 0 <= k <= |ids|
        invariant |store.expectations| == old(|store.expectations|)
        invariant store.Valid()
        invariant DeliverCall(store.expectations, ids[k..], params')
                  == DeliverCall(old(store.expectations), ids, params)
      {
        var id := ids[k];
        var e', p' := E.HandleCall(store.expectations[id], params');
        assert ids[k..][1..] == ids[k + 1..];
        store.expectations := store.expectations[id := e'];
        params' := p';
        k := k + 1;
      }
    }

    /**
     * Hands the call to the LAST matched id only and returns what its return
     * closure makes of the (modified) argument; with no match this is the
     * fatal "no matching expectations" error and nothing changes.
     */
    method WasCalledReturning(params: I) returns (r: Result<O, Panic>)
      requires store.Valid() && IdsBelow(ids, |store.expectations|)
      modifies store`expectations
      ensures store.Valid()
      ensures ids == [] ==> r == Err(NoMatchingExpectation(name)) && store.expectations == old(store.expectations)
      ensures ids != [] ==>
        var id := ids[|ids| - 1];
        var h := E.Called(old(store.expectations[id]), params);
        && store.expectations == old(store.expectations)[id := h.expectation]
        && r == E.ReturnValueFor(h.expectation, h.params)
    {
      if |ids| > 0 {
        var id := ids[|ids| - 1];
        var e', p' := E.HandleCall(store.expectations[id], params);
        store.expectations := store.expectations[id := e'];
        r := E.ReturnValueFor(store.expectations[id], p');
      } else {
        r := Err(NoMatchingExpectation(name));
      }
    }
  }
}

=== FILE: times.dfy ===
/** The call-count rule: a signed number of calls still expected. */
module Times {
  import opened Wrappers
  import opened ConstraintResult

  /** `remaining` starts at the expected number of calls and drops by one per call. */
  datatype Times = Times(remaining: int)

  function New(expectedCalls: int): (t: Times)
    ensures t.remaining == expectedCalls
  {
    Times(expectedCalls)
  }

  /** One matching call; the arguments play no part. */
  function HandleCall(t: Times): (t': Times)
    ensures t'.remaining == t.remaining - 1
  {
    Times(t.remaining - 1)
  }

  /**
   * Passes iff exactly the expected number of calls arrived; otherwise the
   * error carries the (positive) number of calls missing or in excess.
   */
  function Verify(t: Times): (r: ConstraintResult)
    ensures r.Ok? <==> t.remaining == 0
    ensures r.Err? ==> (r.error.CalledTooFewTimes? || r.error.CalledTooManyTimes?) && r.error.times > 0
    ensures r.Err? ==> (r.error.CalledTooFewTimes? <==> t.remaining > 0)
    ensures r.Err? ==> r.error.times == if t.remaining < 0 then -t.remaining else t.remaining
  {
    if t.remaining < 0 then Err(CalledTooManyTimes(-t.remaining))
    else if t.remaining > 0 then Err(CalledTooFewTimes(t.remaining))
    else Ok(())
  }

  /** The rule after `k` matching calls. */
  function AfterCalls(t: Times, k: nat): Times
    decreases k
  {
    if k == 0 then t else AfterCalls(HandleCall(t), k - 1)
  }

  lemma {:induction false} AfterCallsCounts(t: Times, k: nat)
    ensures AfterCalls(t, k).remaining == t.remaining - k
    decreases k
  {
    if k > 0 {
      AfterCallsCounts(HandleCall(t), k - 1);
    }
  }

  /**
   * `Times::new(n)` followed by `k` calls passes iff `k == n`; fewer calls
   * report how many are missing, more calls how many are in excess.
   */
  lemma ExactCount(n: int, k: nat)
    ensures Verify(AfterCalls(New(n), k)).Ok? <==> k == n
    ensures k < n ==> Verify(AfterCalls(New(n), k)) == Err(CalledTooFewTimes(n - k))
    ensures k > n ==> Verify(AfterCalls(New(n), k)) == Err(CalledTooManyTimes(k - n))
  {
    AfterCallsCounts(New(n), k);
  }
}

=== FILE: trivial.dfy ===
/** The `any()` and `none()` validators. */
module Trivial {
  import opened Validator

  /** A validator whose verdict is fixed and ignores the parameter. */
  function Trivial<I>(passes: bool): Validator<I>
  {
    Validator(_ => passes, if passes then "Always Passes" else "Always Fails")
  }

  function Any<I>(): Validator<I>
  {
    Trivial(true)
  }

  function None<I>(): Validator<I>
  {
    Trivial(false)
  }
}

=== FILE: tuple.dfy ===
/**
 * The `Tuple2` .. `Tuple6` validators: one validator per tuple component,
 * combined with a left-to-right `&&` chain.
 */
module Tuple {
  import opened Validator

  /** The `Debug` rendering: "(" then each component as "c, " then ")". */
  function Listing(parts: seq<string>): (s: string)
    ensures |s| >= 2 && s[0] == '(' && s[|s| - 1] == ')'
  {
    "(" + Joined(parts) + ")"
  }

  function Joined(parts: seq<string>): string
  {
    if parts == [] then "" else parts[0] + ", " + Joined(parts[1..])
  }

  function Tuple2<A, B>(v0: Validator<A>, v1: Validator<B>): Validator<(A, B)>
  {
    Validator(
      (p: (A, B)) => v0.validate(p.0) && v1.validate(p.1),
      Listing([v0.description, v1.description]))
  }

  function Tuple3<A, B, C>(v0: Validator<A>, v1: Validator<B>, v2: Validator<C>): Validator<(A, B, C)>
  {
    Validator(
      (p: (A, B, C)) => v0.validate(p.0) && v1.validate(p.1) && v2.validate(p.2),
      Listing([v0.description, v1.description, v2.description]))
  }

  function Tuple4<A, B, C, D>(v0: Validator<A>, v1: Validator<B>, v2: Validator<C>, v3: Validator<D>)
    : Validator<(A, B, C, D)>
  {
    Validator(
      (p: (A, B, C, D)) => v0.validate(p.0) && v1.validate(p.1) && v2.validate(p.2) && v3.validate(p.3),
      Listing([v0.description, v1.description, v2.description, v3.description]))
  }

  function Tuple5<A, B, C, D, E>(
    v0: Validator<A>, v1: Validator<B>, v2: Validator<C>, v3: Validator<D>, v4: Validator<E>)
    : Validator<(A, B, C, D, E)>
  {
    Validator(
      (p: (A, B, C, D, E)) =>
        v0.validate(p.0) && v1.validate(p.1) && v2.validate(p.2) && v3.validate(p.3) && v4.validate(p.4),
      Listing([v0.description, v1.description, v2.description, v3.description, v4.description]))
  }

  function Tuple6<A, B, C, D, E, F>(
    v0: Validator<A>, v1: Validator<B>, v2: Validator<C>, v3: Validator<D>, v4: Validator<E>,
    v5: Validator<F>)
    : Validator<(A, B, C, D, E, F)>
  {
    Validator(
      (p: (A, B, C, D, E, F)) =>
        v0.validate(p.0) && v1.validate(p.1) && v2.validate(p.2) && v3.validate(p.3)
        && v4.validate(p.4) && v5.validate(p.5),
      Listing([v0.description, v1.description, v2.description, v3.description, v4.description,
               v5.description]))
  }

  // The printed form of each tuple validator: every component's description
  // followed by ", ", all inside parentheses.

  lemma Tuple2Prints<A, B>(v0: Validator<A>, v1: Validator<B>)
    ensures Tuple2(v0, v1).description
            == "(" + v0.description + ", " + v1.description + ", )"
  {
    var parts := [v0.description, v1.description];
    assert Joined(parts[1..]) == parts[1] + ", " + "";
  }

  lemma Tuple3Prints<A, B, C>(v0: Validator<A>, v1: Validator<B>, v2: Validator<C>)
    ensures Tuple3(v0, v1, v2).description
            == "(" + v0.description + ", " + v1.description + ", " + v2.description + ", )"
  {
    var parts := [v0.description, v1.description, v2.description];
    assert Joined(parts[2..]) == parts[2] + ", " + "";
    assert Joined(parts[1..]) == parts[1] + ", " + Joined(parts[2..]);
  }

  lemma Tuple4Prints<A, B, C, D>(v0: Validator<A>, v1: Validator<B>, v2: Validator<C>, v3: Validator<D>)
    ensures Tuple4(v0, v1, v2, v3).description
            == "(" + v0.description + ", " + v1.description + ", "
               + v2.description + ", " + v3.description + ", )"
  {
    var parts := [v0.description, v1.description, v2.description, v3.description];
    assert Joined(parts[3..]) == parts[3] + ", " + "";
    assert Joined(parts[2..]) == parts[2] + ", " + Joined(parts[3..]);
    assert Joined(parts[1..]) == parts[1] + ", " + Joined(parts[2..]);
  }

  lemma Tuple5Prints<A, B, C, D, E>(
    v0: Validator<A>, v1: Validator<B>, v2: Validator<C>, v3: Validator<D>, v4: Validator<E>)
    ensures Tuple5(v0, v1, v2, v3, v4).description
            == "(" + v0.description + ", " + v1.description + ", " + v2.description + ", "
               + v3.description + ", " + v4.description + ", )"
  {
    JoinedFive(v0.description, v1.description, v2.description, v3.description, v4.description);
  }

  lemma Tuple6Prints<A, B, C, D, E, F>(
    v0: Validator<A>, v1: Validator<B>, v2: Validator<C>, v3: Validator<D>, v4: Validator<E>,
    v5: Validator<F>)
    ensures Tuple6(v0, v1, v2, v3, v4, v5).description
            == "(" + v0.description + ", " + v1.description + ", " + v2.description + ", "
               + v3.description + ", " + v4.description + ", " + v5.description + ", )"
  {
    var parts := [v0.description, v1.description, v2.description, v3.description, v4.description,
                  v5.description];
    assert parts[1..] == [v1.description, v2.description, v3.description, v4.description, v5.description];
    JoinedFive(v1.description, v2.description, v3.description, v4.description, v5.description);
  }

  /** Five descriptions joined, written out. */
  lemma JoinedFive(a: string, b: string, c: string, d: string, e: string)
    ensures Joined([a, b, c, d, e]) == a + ", " + b + ", " + c + ", " + d + ", " + e + ", "
  {
    var parts := [a, b, c, d, e];
    assert Joined(parts[4..]) == parts[4] + ", " + "";
    assert Joined(parts[3..]) == parts[3] + ", " + Joined(parts[4..]);
    assert Joined(parts[2..]) == parts[2] + ", " + Joined(parts[3..]);
    assert Joined(parts[1..]) == parts[1] + ", " + Joined(parts[2..]);
  }
}

=== FILE: validator.dfy ===
/**
 * The `Validator` interface the parameter rule consumes, and the blanket
 * equality validator every `PartialEq` value provides.
 */
module Validator {

  /**
   * A validator: `validate` decides whether a parameter is acceptable, and
   * `description` is what `print` (or `Debug`) renders for its pass condition.
   * Validators are modelled as pure: the stock ones keep no state, so
   * validating twice gives the same answer.
   */
  datatype Validator<!I> = Validator(validate: I -> bool, description: string)

  /** A value used as a validator accepts exactly the parameters equal to it. */
  function Equal<I(==)>(expected: I, render: I -> string): Validator<I>
  {
    Validator(param => param == expected, render(expected))
  }
}

=== FILE: validator_rules.dfy ===
/**
 * What each stock validator means once a parameter rule uses it: the
 * verdict of `Params` after a whole sequence of calls.
 */
module ValidatorRules {
  import opened Wrappers
  import opened ConstraintResult
  import opened Validator
  import T = Trivial
  import opened Tuple
  import Params

  /** The verdict of a fresh parameter rule on `validator` after `calls`. */
  function RuleVerdict<I>(validator: Validator<I>, render: I -> string, calls: seq<I>): ConstraintResult
  {
    Params.Verify(Params.AfterCalls(Params.New(validator, render), calls))
  }

  // ---------------------------------------------------------------------------
  // The equality validator

  /** A rule on a value passes iff every call was made with exactly that value. */
  lemma EqualRuleVerdict<I>(expected: I, render: I -> string, calls: seq<I>)
    ensures RuleVerdict(Equal(expected, render), render, calls).Ok?
            <==> forall k :: 0 <= k < |calls| ==> calls[k] == expected
  {
    Params.ValidIffAllPass(Params.New(Equal(expected, render), render), calls);
  }

  /**
   * When call `k` is the first that differs from the expected value, the
   * error shows the expected value and that call's argument.
   */
  lemma EqualRuleReportsFirstDifference<I>(expected: I, render: I -> string, calls: seq<I>, k: nat)
    requires k < |calls| && calls[k] != expected
    requires forall j :: 0 <= j < k ==> calls[j] == expected
    ensures RuleVerdict(Equal(expected, render), render, calls)
            == Err(MismatchedParams(render(expected), render(calls[k])))
  {
    Params.FirstOffenderReported(Params.New(Equal(expected, render), render), calls, k);
  }

  // ---------------------------------------------------------------------------
  // `any()` and `none()`

  /** `any()` passes whatever calls were made, none included. */
  lemma AnyRuleVerdict<I>(render: I -> string, calls: seq<I>)
    ensures RuleVerdict(T.Any(), render, calls) == Ok(())
  {
    Params.ValidIffAllPass(Params.New(T.Any(), render), calls);
  }

  /**
   * `none()` passes iff no call was made; otherwise it reports "Always Fails"
   * against the first call's argument.
   */
  lemma NoneRuleVerdict<I>(render: I -> string, calls: seq<I>)
    ensures RuleVerdict(T.None(), render, calls).Ok? <==> calls == []
    ensures calls != [] ==>
      RuleVerdict(T.None(), render, calls) == Err(MismatchedParams("Always Fails", render(calls[0])))
  {
    if calls != [] {
      Params.FirstOffenderReported(Params.New(T.None(), render), calls, 0);
    }
  }

  // ---------------------------------------------------------------------------
  // Tuples

  /**
   * In a pair, `any()` leaves the other component's validator in charge, and
   * `none()` in either place rejects every pair.
   */
  lemma Tuple2WithTrivial<A, B>(va: Validator<A>, vb: Validator<B>, p: (A, B), q: (B, A))
    ensures Tuple2(T.Any(), vb).validate(p) == vb.validate(p.1)
    ensures Tuple2(va, T.Any()).validate(p) == va.validate(p.0)
    ensures !Tuple2(T.None(), vb).validate(p) && !Tuple2(vb, T.None()).validate(q)
  {
  }

  /**
   * A rule on a pair passes iff each component validator accepted its own
   * component of every call; its error shows "(d0, d1, )".
   */
  lemma Tuple2RuleVerdict<A, B>(
    v0: Validator<A>, v1: Validator<B>, render: ((A, B)) -> string, calls: seq<(A, B)>)
    ensures var r := RuleVerdict(Tuple2(v0, v1), render, calls);
      && (r.Ok? <==> && (forall k :: 0 <= k < |calls| ==> v0.validate(calls[k].0))
                     && (forall k :: 0 <= k < |calls| ==> v1.validate(calls[k].1)))
      && (r.Err? ==> && r.error.MismatchedParams?
                     && r.error.expectedMsg == "(" + v0.description + ", " + v1.description + ", )")
  {
    Params.ValidIffAllPass(Params.New(Tuple2(v0, v1), render), calls);
    Tuple2Prints(v0, v1);
  }

  /** The same for a triple: each component validator must accept its component of every call. */
  lemma Tuple3RuleVerdict<A, B, C>(
    v0: Validator<A>, v1: Validator<B>, v2: Validator<C>,
    render: ((A, B, C)) -> string, calls: seq<(A, B, C)>)
    ensures var r := RuleVerdict(Tuple3(v0, v1, v2), render, calls);
      && (r.Ok? <==> && (forall k :: 0 <= k < |calls| ==> v0.validate(calls[k].0))
                     && (forall k :: 0 <= k < |calls| ==> v1.validate(calls[k].1))
                     && (forall k :: 0 <= k < |calls| ==> v2.validate(calls[k].2)))
      && (r.Err? ==> && r.error.MismatchedParams?
                     && r.error.expectedMsg
                        == "(" + v0.description + ", " + v1.description + ", "
                           + v2.description + ", )")
  {
    Params.ValidIffAllPass(Params.New(Tuple3(v0, v1, v2), render), calls);
    Tuple3Prints(v0, v1, v2);
  }

  /** The same for a 4-tuple: each component validator must accept its component of every call. */
  lemma Tuple4RuleVerdict<A, B, C, D>(
    v0: Validator<A>, v1: Validator<B>, v2: Validator<C>,
    v3: Validator<D>,
    render: ((A, B, C, D)) -> string, calls: seq<(A, B, C, D)>)
    ensures var r := RuleVerdict(Tuple4(v0, v1, v2, v3), render, calls);
      && (r.Ok? <==> && (forall k :: 0 <= k < |calls| ==> v0.validate(calls[k].0))
                     && (forall k :: 0 <= k < |calls| ==> v1.validate(calls[k].1))
                     && (forall k :: 0 <= k < |calls| ==> v2.validate(calls[k].2))
                     && (forall k :: 0 <= k < |calls| ==> v3.validate(calls[k].3)))
      && (r.Err? ==> && r.error.MismatchedParams?
                     && r.error.expectedMsg
                        == "(" + v0.description + ", " + v1.description + ", "
                           + v2.description + ", " + v3.description + ", )")
  {
    Params.ValidIffAllPass(Params.New(Tuple4(v0, v1, v2, v3), render), calls);
    Tuple4Prints(v0, v1, v2, v3);
  }

  /** The same for a 5-tuple: each component validator must accept its component of every call. */
  lemma Tuple5RuleVerdict<A, B, C, D, E>(
    v0: Validator<A>, v1: Validator<B>, v2: Validator<C>,
    v3: Validator<D>, v4: Validator<E>,
    render: ((A, B, C, D, E)) -> string, calls: seq<(A, B, C, D, E)>)
    ensures var r := RuleVerdict(Tuple5(v0, v1, v2, v3, v4), render, calls);
      && (r.Ok? <==> && (forall k :: 0 <= k < |calls| ==> v0.validate(calls[k].0))
                     && (forall k :: 0 <= k < |calls| ==> v1.validate(calls[k].1))
                     && (forall k :: 0 <= k < |calls| ==> v2.validate(calls[k].2))
                     && (forall k :: 0 <= k < |calls| ==> v3.validate(calls[k].3))
                     && (forall k :: 0 <= k < |calls| ==> v4.validate(calls[k].4)))
      && (r.Err? ==> && r.error.MismatchedParams?
                     && r.error.expectedMsg
                        == "(" + v0.description + ", " + v1.description + ", " + v2.description + ", "
                           + v3.description + ", " + v4.description + ", )")
  {
    Params.ValidIffAllPass(Params.New(Tuple5(v0, v1, v2, v3, v4), render), calls);
    Tuple5Prints(v0, v1, v2, v3, v4);
  }

  /** The same for a 6-tuple: each component validator must accept its component of every call. */
  lemma Tuple6RuleVerdict<A, B, C, D, E, F>(
    v0: Validator<A>, v1: Validator<B>, v2: Validator<C>,
    v3: Validator<D>, v4: Validator<E>, v5: Validator<F>,
    render: ((A, B, C, D, E, F)) -> string, calls: seq<(A, B, C, D, E, F)>)
    ensures var r := RuleVerdict(Tuple6(v0, v1, v2, v3, v4, v5), render, calls);
      && (r.Ok? <==> && (forall k :: 0 <= k < |calls| ==> v0.validate(calls[k].0))
                     && (forall k :: 0 <= k < |calls| ==> v1.validate(calls[k].1))
                     && (forall k :: 0 <= k < |calls| ==> v2.validate(calls[k].2))
                     && (forall k :: 0 <= k < |calls| ==> v3.validate(calls[k].3))
                     && (forall k :: 0 <= k < |calls| ==> v4.validate(calls[k].4))
                     && (forall k :: 0 <= k < |calls| ==> v5.validate(calls[k].5)))
      && (r.Err? ==> && r.error.MismatchedParams?
                     && r.error.expectedMsg
                        == "(" + v0.description + ", " + v1.description + ", " + v2.description + ", "
                           + v3.description + ", " + v4.description + ", " + v5.description + ", )")
  {
    Params.ValidIffAllPass(Params.New(Tuple6(v0, v1, v2, v3, v4, v5), render), calls);
    Tuple6Prints(v0, v1, v2, v3, v4, v5);
  }
}

=== FILE: wrappers.dfy ===
/** Option and Result, as the Rust core uses them. */
module Wrappers {

  datatype Option<+T> = None | Some(value: T)

  /** Rust's `Result<T, E>`: the verdicts of constraints and expectations are `Result<(), E>`. */
  datatype Result<+T, +E> = Ok(value: T) | Err(error: E)
}
